=== FILE: README.md ===
# Inference run pipeline — a Dafny model

This project models the back-end core of a small proof-of-concept AI
inference tool. A user uploads dataset files, picks a registered model and
starts an inference run. A background job then does four things:

- resolves a scoring adapter for the model's backend and modality;
- scores every sample of the dataset directory;
- writes a JSON manifest per sample;
- stores the per-sample results and a run summary.

The model covers:

- **Registry** — the adapter lookup `get_adapter`: backend "dummy" and
  modality "vision", "timeseries" or "mixed".
- **Timeseries** — the dummy time-series adapter. It covers:
  - the sorted, case-insensitive `.csv` selection;
  - one result per CSV line (header included);
  - the base score from the column lengths, plus noise, clamped to [0, 1];
  - the `name:row:i` sample keys and the five-column preview.
- **Vision** — the dummy vision adapter. It covers:
  - the image-extension selection;
  - the score drawn in [0.2, 0.98];
  - the bounding box drawn within its ranges.
- **Executor** — the background run. It covers:
  - the queued → running → done / failed lifecycle and its timestamps;
  - the adapter dispatch;
  - replacing the run's result rows;
  - the manifests, the summary (total / ok / ng / output directory);
  - the generic failure handler.
- **Scheduler** — three request handlers:
  - run creation, with its three existence checks;
  - the paged results listing, with `static_url`;
  - the modality filter of the model listing.
- **Uploads** — two upload steps:
  - the `safe_name` step of an upload;
  - the CSV branch of the file metadata extraction.
- **Seed** — `DEFAULT_MODELS` and `seed_models`.

Supporting modules:

- Wrappers, Strings, Seqs and Sorting hold the shared data structures and
  lemmas.
- Paths holds the pathlib operations the code relies on: `suffix`, `name`
  and joining.
- Domain holds the values that flow between the parts.
- Store holds the database rows the handlers read and write.
- Scenarios works concrete runs through the model end to end.

Environment inputs:

- **Randomness.** Python's `random` becomes an oracle of numbered draws. The
  draws' ranges are a precondition.
- **Filesystem.** The dataset directory becomes a listing plus a per-file
  read outcome. Existing output paths and failing manifest writes are part
  of an `Env` value.
- **Clock.** `datetime.now` becomes a counter in the store.

### Behaviour of the code worth knowing

- **A failed manifest write leaves partial results.** Such a write raises
  inside the same session. Before it:
  - the run's old rows have been deleted;
  - rows have been added for the items before the failing one.

  The generic handler then marks the run failed and commits that session. So
  the failed run keeps those rows (`Executor.ExecuteReplacesRows`).
- **Re-running a finished run is allowed.** Nothing stops a run that is
  already done or failed from running again. The run keeps its old summary
  (or error). Its status and timestamps change, and so does whichever of
  summary and error the new outcome sets. So the status agrees with the
  summary and error only for a fresh run
  (`Executor.FreshRunOutcomeExclusive`).
- **Every CSV line is a sample.** A header line is scored like any other
  line.
- **Listing an unknown run gives an empty page.** The results listing does
  not check that the run exists.
- **The `static_url` guard is a bare string prefix "storage".** A path such
  as `storage_x/a` passes the guard. `relative_to` then raises, which gives
  a server error (`Scheduler.StaticUrl`, `Scheduler.Views`). Such paths
  cannot come from the two scorers, whose output paths all lie under the
  dataset directory.
- **Field set.** Run, result and dataset-file fields are those that main.py
  reads and writes.

## Model

| member | source | states |
|---|---|---|
| Domain.ResolveThreshold | backend/app/inference/adapters/dummy_timeseries.py:13 | no params or no "threshold" key gives 0.5; a convertible value gives that number; an unconvertible one is a fault carrying `float()`'s message |
| Paths.SuffixIsExtension | backend/app/inference/adapters/dummy_timeseries.py:14 | the lower-cased pathlib suffix equals an extension exactly when the name is longer than it and ends with it case-insensitively |
| Paths.BaseName | backend/app/main.py:145 | the final component of a path never contains '/' and is never "." |
| Paths.BaseNameOfJoin | backend/app/main.py:145-146 | the final component of `dir/name` is `name` for a plain file name: joining and taking the name back round-trips |
| Strings.StringToNatInverts | backend/app/inference/adapters/dummy_timeseries.py:26 | reading back the decimal rendering of a row index gives the index |
| Strings.NatToStringInjective | backend/app/inference/adapters/dummy_timeseries.py:26 | distinct row indices render as distinct decimal strings |
| Strings.Lower | backend/app/inference/adapters/dummy_timeseries.py:14 | lower-casing keeps the length and maps every character on its own |
| Strings.ReplaceChar | backend/app/main.py:211 | every occurrence of the character becomes the replacement and every other character is kept, so no '/' is left behind and a key without one is unchanged |
| Seqs.FilterDistinct | backend/app/inference/adapters/dummy_timeseries.py:14 | selecting entries from a listing without repeats yields no repeats |
| Seqs.FilterAppend | backend/app/main.py:205-224 | filtering distributes over concatenation, which lets rows be appended after a delete |
| Sorting.SortNames | backend/app/inference/adapters/dummy_timeseries.py:14 | `sorted` returns an ordered permutation of the listing |
| Sorting.SortedUnique | backend/app/inference/adapters/dummy_timeseries.py:14 | two ordered permutations of the same names are equal |
| Sorting.SortNamesOrderIndependent | backend/app/inference/adapters/dummy_timeseries.py:14 | the selected order does not depend on the order `iterdir` lists entries in |
| Sorting.FilterSorted | backend/app/inference/adapters/dummy_timeseries.py:14 | keeping some entries of an ordered listing leaves it ordered |
| Registry.GetAdapter | backend/app/inference/adapter_registry.py:8-19 | a backend other than "dummy" is rejected first; with "dummy", exactly the three modalities resolve, and only "timeseries" gives the time-series adapter |
| Registry.GetAdapterIsTableLookup | backend/app/inference/adapter_registry.py:8-19 | the branch chain agrees with a (backend, modality) table, and every pair outside it is one of the two errors |
| Registry.RunAdapter | backend/app/main.py:199-200 | the vision scorer runs for the vision adapter and the time-series scorer for the time-series one; every item either returns has a score in [0, 1], a verdict that is ok exactly when the score reaches the resolved threshold, and a non-empty output path |
| Registry.TimeseriesItemsValid | backend/app/inference/adapters/dummy_timeseries.py:20-29 | the time-series items meet the same score, verdict and output-path guarantees |
| Timeseries.CsvFiles | backend/app/inference/adapters/dummy_timeseries.py:14 | the selection is ordered, holds exactly the listing's names ending in ".csv" in any case, and has no repeats when the listing has none |
| Timeseries.Clamp | backend/app/inference/adapters/dummy_timeseries.py:22 | the result lies in [0, 1], equals the input inside it and the nearer bound outside it |
| Timeseries.ScoreRow | backend/app/inference/adapters/dummy_timeseries.py:20-33 | one line's item: key `name:row:i`, index and five-column preview, path in the directory, clamped base score plus noise, threshold verdict and rule summary |
| Timeseries.FileResults | backend/app/inference/adapters/dummy_timeseries.py:17-33 | one item per line of a file, in line order, line i using noise draw start + i |
| Timeseries.ResultsUpToAt | backend/app/inference/adapters/dummy_timeseries.py:16-33 | line i of file f sits at position offset(f) + i of the concatenated results, whatever number of files follows |
| Timeseries.DirResultsAt | backend/app/inference/adapters/dummy_timeseries.py:16-33 | line i of file f is result number offset(f) + i and is scored with that draw |
| Timeseries.Owner | backend/app/inference/adapters/dummy_timeseries.py:16-19 | every result position belongs to some line of some file |
| Timeseries.PositionsDiffer | backend/app/inference/adapters/dummy_timeseries.py:16-19 | lines of an earlier file come before every line of a later file |
| Timeseries.RowKeyInjective | backend/app/inference/adapters/dummy_timeseries.py:26 | a sample key determines its file name and line index |
| Timeseries.DirResultsKeysDistinct | backend/app/inference/adapters/dummy_timeseries.py:16-26 | for distinct file names, no two results share a sample key |
| Timeseries.ReadTables | backend/app/inference/adapters/dummy_timeseries.py:16-19 | succeeds exactly when every selected file reads, returning their lines in order; otherwise fails with the first unreadable file's path and message |
| Timeseries.Run | backend/app/inference/adapters/dummy_timeseries.py:11-35 | a threshold fault or a missing directory fails the adapter; otherwise it succeeds exactly when every selected CSV file reads, fails with the first unreadable file's error, and on success gives one result per line over the selected files |
| Timeseries.DirResultsLayout | backend/app/inference/adapters/dummy_timeseries.py:16-33 | every result is the scored line of the file and line its position names |
| Timeseries.RunLayout | backend/app/inference/adapters/dummy_timeseries.py:11-35 | a successful run returns, position by position, the scored lines of the sorted CSV files |
| Timeseries.RunKeysDistinct | backend/app/inference/adapters/dummy_timeseries.py:26 | a directory without repeated names yields distinct sample keys |
| Timeseries.RunKeysDeterministic | backend/app/inference/adapters/dummy_timeseries.py:16-26 | success and the sequence of sample keys do not depend on the random draws |
| Vision.ImageFileIff | backend/app/inference/adapters/dummy_vision.py:13 | a suffix in {.png, .jpg, .jpeg, .bmp} is the same as the name ending in one of them case-insensitively |
| Vision.ImageFiles | backend/app/inference/adapters/dummy_vision.py:13 | the selection is ordered, holds exactly the image names of the listing, and has no repeats when the listing has none |
| Vision.ScoreImage | backend/app/inference/adapters/dummy_vision.py:16-33 | key is the file name, the score is the draw in [0.2, 0.98], the verdict is thresholded and the box lies in its ranges |
| Vision.ImageResults | backend/app/inference/adapters/dummy_vision.py:15-33 | one item per selected image, in order, image i using draw start + i |
| Vision.Run | backend/app/inference/adapters/dummy_vision.py:10-34 | a threshold fault or a missing directory fails the adapter; otherwise image i of the sorted selection is scored with draw i |
| Vision.RunKeysDistinct | backend/app/inference/adapters/dummy_vision.py:26 | a directory without repeated names yields distinct sample keys |
| Store.FindModel | backend/app/main.py:194 | the lookup finds a model with the id, and finds none exactly when no model has it |
| Store.ReplaceRows | backend/app/main.py:205-224 | after deleting a run's rows and appending new ones, that run has exactly the new rows and every other run keeps its rows |
| Executor.ManifestName | backend/app/main.py:211 | the manifest file name is the key with each '/' turned into '_' and every other character kept, followed by ".json" |
| Executor.FirstWriteFailure | backend/app/main.py:206-212 | items before the returned index write their manifests, and the item at it (if any) fails |
| Executor.WriteManifests | backend/app/main.py:206-212 | exactly the items whose output path exists get a manifest at their path, holding one such item with that path; other files are untouched |
| Executor.LastWriterWins | backend/app/main.py:206-212 | when several items share a manifest path, the file holds the last of them |
| Executor.ToRows | backend/app/main.py:214-224 | one row per item, in order, tagged with the run id and carrying the item's key, score, verdict, output path, detail and summary |
| Executor.CountOk | backend/app/main.py:227 | the ok count is at most the total, zero when all are ng and the total when all are ok |
| Executor.CountOkMatchesRows | backend/app/main.py:226-231 | the ok count equals the number of stored rows with verdict ok |
| Executor.Summarize | backend/app/main.py:226-233 | total is the item count, ok + ng = total, and the output directory is recorded |
| Executor.Start | backend/app/main.py:188-190 | only the run's status and start time change, the start time being a fresh clock reading |
| Executor.Produce | backend/app/main.py:193-200 | a missing dataset or model, or an adapter lookup error, is the fault raised; otherwise the resolved adapter runs over the dataset's raw directory with the run's params |
| Executor.Finish | backend/app/main.py:193-243 | the run ends done or failed with a fresh finish time; its identity, params and start time, the other runs and the catalogue are unchanged |
| Executor.Execute | backend/app/main.py:181-245 | an unknown run id changes nothing; a known run always ends done or failed |
| Executor.ExecuteLifecycle | backend/app/main.py:188-243 | start precedes finish, both after the previous clock, and the run's identity and params are kept |
| Executor.ExecuteIsolation | backend/app/main.py:205 | other runs, their result rows and the catalogue are unchanged |
| Executor.ExecuteFault | backend/app/main.py:193-243 | an adapter-side fault fails the run with that fault and leaves the result rows, manifests and summary untouched |
| Executor.ExecuteReplacesRows | backend/app/main.py:205-243 | the run's rows become the rows of the items before the first failing manifest write, and the manifests are exactly the earlier files plus those of those items; with no failure it is done with the summary of all items, otherwise failed with the write error |
| Executor.ExecuteOutcome | backend/app/main.py:226-243 | done sets the summary and keeps the error; failed sets the error and keeps the summary |
| Executor.DoneSummaryMatchesRows | backend/app/main.py:226-236 | a done run's summary counts exactly its stored rows and its ok rows |
| Executor.FreshRunOutcomeExclusive | backend/app/main.py:228-243 | for a run without summary or error, done holds exactly when a summary is set and failed exactly when an error is set |
| Scheduler.CreateRun | backend/app/main.py:254-270 | project, dataset and model are checked in that order with 404s; on success exactly one queued run with the payload is added |
| Scheduler.SubmitRunOutcome | backend/app/main.py:248-273 | a rejected request changes nothing; an accepted one responds with the queued run, which the background job then leaves done or failed |
| Scheduler.Page | backend/app/main.py:291-298 | a page is the slice of at most `limit` rows starting at `offset` |
| Scheduler.PagesArePrefix | backend/app/main.py:295-296 | consecutive pages concatenate to a prefix of the run's rows |
| Scheduler.PagesCoverRows | backend/app/main.py:295-296 | enough consecutive pages give back every row, in order |
| Scheduler.StaticUrl | backend/app/main.py:302-304 | a path outside the storage prefix has no URL; a path under "storage/" always has one, and in pathlib's normal form it is "/static/" plus the rest; "storage" and "storage/" map to "/static/."; any other path starting with "storage" is a server error |
| Scheduler.Views | backend/app/main.py:300-319 | the response keeps the page's rows in order, each with its computed static URL, and fails with a server error exactly when some row's URL computation fails |
| Scheduler.ListResults | backend/app/main.py:284-319 | out-of-range limit or offset is rejected; otherwise the response is the views of the requested page of this run's rows |
| Scheduler.ListModels | backend/app/main.py:99-107 | an unknown non-empty modality is a 400; no modality lists every model; otherwise exactly the models of that task type |
| Scheduler.ListingAgreesWithRegistry | backend/app/main.py:101-104 | the modalities the listing accepts are those the adapter registry resolves |
| Uploads.SafeName | backend/app/main.py:145 | the stored name has no '/' and is not "."; a missing or empty file name becomes "upload.bin"; a plain name is kept |
| Uploads.SafeNameOfPath | backend/app/main.py:145 | a client path `dir/name` is stored as `name` |
| Uploads.MaxColumns | backend/app/main.py:121 | the width is attained by some row and bounds every row, and is 0 for no rows |
| Uploads.ExtractMetadata | backend/app/main.py:110-123 | non-CSV files carry only the image type, if any; a CSV file gets its line count and widest row; an unreadable CSV raises |
| Seed.Names | backend/app/seed.py:14 | the set holds exactly the names of the existing models |
| Seed.AddedNamesFree | backend/app/seed.py:17-21 | no added model's name was already present |
| Seed.AddedOrigin | backend/app/seed.py:17-21 | every added model is the record of one of the defaults |
| Seed.AddedComplete | backend/app/seed.py:17-21 | every default whose name is absent is added |
| Seed.AddedNothing | backend/app/seed.py:17-21 | when every default name is present nothing is added |
| Seed.AddedStep | backend/app/seed.py:17-21 | each loop step adds the current default exactly when its name is absent |
| Seed.AddMissing | backend/app/seed.py:13-24 | the loop appends the absent defaults in order and commits exactly when it added one |
| Seed.SeedModels | backend/app/seed.py:13-24 | after seeding every default name is present; the commit happens exactly when a model was added |
| Seed.SeededNamesCoverDefaults | backend/app/seed.py:13-24 | every default name is present after adding the missing ones |
| Seed.SeedIdempotent | backend/app/seed.py:13-24 | seeding a second time adds nothing |
| Seed.AddedKeepsBackend | backend/app/seed.py:17-21 | added models keep the defaults' backend |
| Seed.SeedKeepsExisting | backend/app/seed.py:13-24 | existing models stay in place, at most three are added, each with a fresh name and the dummy backend |
| Seed.DefaultsResolve | backend/app/seed.py:6-10 | every default model's backend and task type resolve to an adapter |
| Scenarios.TimeseriesScenario | backend/app/inference/adapters/dummy_timeseries.py:11-35 | a directory with `a.csv` (two lines) and `notes.txt`, no noise and threshold 0.02 gives two results, keyed `a.csv:row:0` and `a.csv:row:1`, scored 0.03 ok and 0.01 ng |
| Scenarios.UnsupportedBackendScenario | backend/app/main.py:199 | a model with backend "onnx" fails the run with "Unsupported backend: onnx", no summary and no rows |
| Scenarios.DoneScenario | backend/app/main.py:181-236 | the sample run ends done, with summary total 2, ok 1, ng 1 and its output directory, and two rows with the expected keys |

## Left out

- The HTTP layer (FastAPI routing, status codes beyond the errors named above), the ORM session and the database engine: the store is a value and each handler a function on it.
- The other handlers of main.py (projects, datasets, validations, `get_inference_run`) are not part of this model.
- Concurrency: the background job runs to completion in one step after the creating request; two jobs for the same run are not interleaved.
- Timestamps are readings of a counter in the store, not wall-clock times.
- Ordering by `created_at` is assumed to be insertion order. In the program `created_at` is a database default (`func.now()`), and rows inserted in one commit (one run's results, the seeded models) can share a timestamp, so the database decides the order of ties; the model fixes that order to the order of insertion.
- Floating point: scores are exact reals; `round(…, 4)` and `random.uniform`'s floating-point endpoints are not modelled.
- Domain.ResolveThreshold: a threshold that `float()` turns into nan or ±inf (for example the strings "nan" or "inf") is not representable, because a convertible value is an exact real; with nan every verdict would be ng, and the model does not cover that case.
- Timeseries.ScoreRow: the score is not rounded to four decimals, because exact reals carry no rounding.
- Vision.ScoreImage: the score is not rounded to four decimals, for the same reason.
- The CSV tokeniser and UTF-8 decoding are not modelled: a file's read outcome (its lines as rows of columns, or an error message) is an input.
- `imghdr.what` inspects file contents; the detected image type is an input of `Uploads.ExtractMetadata`.
- Upload I/O (copying the stream, `stat` for the size, `mkdir`) and the "No files provided" check are not modelled; only the `safe_name` step is.
- Joining paths (`Paths.Join`) puts a plain "/" between directory and name; pathlib's normalisation of repeated or trailing separators and `.` components when it joins paths, and in `relative_to`, is not modelled. `Paths.BaseName` does model it for the last component that `safe_name` takes.
- Scheduler.StaticUrl: the "/static/" remainder is stated only for output paths whose part below "storage/" is in pathlib's normal form (no empty or `.` component, no trailing "/"); for other paths `relative_to` would normalise the remainder and the model keeps it verbatim. In the program the scorers' output paths are `as_posix()` renderings, which are always in normal form.
- `str.lower()` is modelled for ASCII letters only.
- Fresh identifiers (`uuid4`) are parameters, and their freshness is a precondition of run creation.
- A failure of `output_dir.mkdir` is not modelled separately; it would fail the run like any other fault.

=== FILE: domain.dfy ===
/** The values that flow through an inference run: run parameters, the
    faults that end a run, the scorer's per-sample items, the dataset
    directory as the scorers see it, and the random draws they consume. */
module Domain {
  import opened Wrappers

  /** A per-sample classification: "ok" or "ng". */
  datatype Verdict = Ok | Ng

  /** Thresholding as both scorers do it: "ok" iff the score reaches the
      threshold. */
  function VerdictFor(score: real, threshold: real): Verdict {
    if score >= threshold then Ok else Ng
  }

  /** A stored parameter value, seen through Python's `float()`: either it
      converts to a number (a JSON number, a boolean, a numeric string) or
      `float()` raises with the given message (null, a list, an object,
      other strings). */
  datatype ParamValue = Convertible(number: real) | Unconvertible(message: string)

  /** The run's `params_json` object; `None` is a run created without one. */
  type Params = map<string, ParamValue>

  const ThresholdKey := "threshold"
  const DefaultThreshold: real := 0.5

  /** What makes an execution attempt fail; the run records it as its error
      message (`str(exc)`). */
  datatype Fault =
    | UnsupportedBackend(backend: string)
    | UnsupportedModality(modality: string)
    | DatasetOrModelMissing
    | ThresholdNotNumeric(message: string)
    | DirectoryMissing(path: string)
    | Unreadable(path: string, message: string)
    | ManifestWriteFailed(path: string, message: string)

  /** The text `str(exc)` gives for each fault. The operating-system errors
      carry the text the filesystem reported. */
  function Message(f: Fault): string {
    match f
    case UnsupportedBackend(b) => "Unsupported backend: " + b
    case UnsupportedModality(m) => "Unsupported modality: " + m
    case DatasetOrModelMissing => "Dataset or model not found"
    case ThresholdNotNumeric(m) => m
    case DirectoryMissing(p) => "[Errno 2] No such file or directory: '" + p + "'"
    case Unreadable(_, m) => m
    case ManifestWriteFailed(_, m) => m
  }

  /** The scoring threshold of a run: 0.5 unless the parameters carry a
      "threshold" entry, which must convert to a number. */
  function ResolveThreshold(params: Option<Params>): (r: Result<real, Fault>)
    ensures (params.None? || ThresholdKey !in params.value) ==> r == Success(DefaultThreshold)
    ensures params.Some? && ThresholdKey in params.value ==>
              match params.value[ThresholdKey]
              case Convertible(x) => r == Success(x)
              case Unconvertible(m) => r == Failure(ThresholdNotNumeric(m))
  {
    var p := params.GetOr(map[]);
    if ThresholdKey !in p then Success(DefaultThreshold)
    else match p[ThresholdKey]
      case Convertible(x) => Success(x)
      case Unconvertible(m) => Failure(ThresholdNotNumeric(m))
  }

  datatype BBox = BBox(x: int, y: int, w: int, h: int)

  /** `detail_json`: a row index and the row's first columns for a
      timeseries sample (`source_type` "timeseries"), a bounding box for an
      image (`source_type` "image"). */
  datatype Detail =
    | RowDetail(rowIndex: nat, preview: seq<string>)
    | ImageDetail(bbox: BBox)

  /** The per-sample `summary`: which rule produced the verdict, and with
      what threshold. */
  datatype ItemSummary = ItemSummary(rule: string, threshold: real)

  /** One scorer output: `sample_key`, `score`, `verdict`, `output_path`,
      `detail_json` and `summary`. */
  datatype Item = Item(
    sampleKey: string,
    score: real,
    verdict: Verdict,
    outputPath: string,
    detail: Detail,
    summary: ItemSummary)

  type Row = seq<string>

  /** What reading one CSV file gives: its rows as `csv.reader` splits them,
      or the error text of the exception raised (a directory, bad UTF-8). */
  datatype CsvRead = Rows(rows: seq<Row>) | ReadError(message: string)

  /** A dataset's raw directory: its entry names in the order `iterdir()`
      lists them, and what reading each entry as CSV gives. */
  datatype Directory = Directory(names: seq<string>, read: string -> CsvRead)

  /** The random values one vision sample draws, in call order:
      `uniform(0.2, 0.98)` then four `randint`s. */
  datatype VisionDraw = VisionDraw(score: real, x: int, y: int, w: int, h: int)

  predicate ValidDraw(d: VisionDraw) {
    && 0.2 <= d.score <= 0.98
    && 0 <= d.x <= 100 && 0 <= d.y <= 100
    && 20 <= d.w <= 120 && 20 <= d.h <= 120
  }

  /** The random module as an oracle: the k-th row noise
      (`uniform(-0.1, 0.1)`) and the k-th image draw. */
  datatype Oracle = Oracle(noise: nat -> real, draws: nat -> VisionDraw)

  ghost predicate ValidOracle(o: Oracle) {
    && (forall k: nat :: -0.1 <= o.noise(k) <= 0.1)
    && (forall k: nat :: ValidDraw(o.draws(k)))
  }
}

=== FILE: executor.dfy ===
/** `_run_inference_background`: drives one run from `queued` through
    `running` to `done` or `failed`, replacing that run's result rows and
    writing a JSON manifest per sample. */
module Executor {
  import opened Wrappers
  import opened Strings
  import opened Seqs
  import opened Paths
  import opened Domain
  import opened Registry
  import opened Store

  const StorageRoot := "storage"

  /** The directory a dataset's uploaded files are stored in, under the
      storage root and the dataset's project. */
  function DatasetDir(d: DatasetRecord): string {
    Join(Join(Join(Join(StorageRoot, d.projectId), "datasets"), d.id), "raw")
  }

  /** The directory a run's manifests are written to, under the storage
      root and the run's project. */
  function OutputDir(run: Run): string {
    Join(Join(Join(Join(StorageRoot, run.projectId), "runs"), run.id), "outputs")
  }

  /** The manifest file name of a sample: its key with every '/' turned into
      '_', so the name stays inside the output directory, plus ".json". */
  function ManifestName(key: string): (r: string)
    ensures |r| == |key| + 5
    ensures '/' !in key ==> r == key + ".json"
    ensures '/' !in r[..|key|]
    ensures r[|key|..] == ".json"
    ensures forall i :: 0 <= i < |key| ==> r[i] == (if key[i] == '/' then '_' else key[i])
  {
    ReplaceChar(key, '/', '_') + ".json"
  }

  function ManifestPath(outDir: string, key: string): string {
    Join(outDir, ManifestName(key))
  }

  /** What the executor sees of the outside world: the dataset directories
      by path, which paths exist, which manifest writes raise (with the
      error text), and the random draws. */
  datatype Env = Env(
    dirs: map<string, Directory>,
    existing: set<string>,
    writeErrors: map<string, string>,
    oracle: Oracle)

  function DirAt(env: Env, path: string): Option<Directory> {
    if path in env.dirs then Some(env.dirs[path]) else None
  }

  /** A manifest is written for an item whose `output_path` is set and
      exists. */
  predicate WantsManifest(item: Item, env: Env) {
    item.outputPath != "" && item.outputPath in env.existing
  }

  predicate ManifestFails(item: Item, outDir: string, env: Env) {
    WantsManifest(item, env) && ManifestPath(outDir, item.sampleKey) in env.writeErrors
  }

  /** The index of the first item whose manifest write raises, or the
      number of items when none does. */
  function FirstWriteFailure(items: seq<Item>, outDir: string, env: Env): (k: nat)
    ensures k <= |items|
    ensures forall j :: 0 <= j < k ==> !ManifestFails(items[j], outDir, env)
    ensures k < |items| ==> ManifestFails(items[k], outDir, env)
    decreases |items|
  {
    if |items| == 0 then 0
    else if ManifestFails(items[0], outDir, env) then 0
    else 1 + FirstWriteFailure(items[1..], outDir, env)
  }

  /** The manifest paths the items ask for. */
  function ManifestPaths(items: seq<Item>, outDir: string, env: Env): set<string> {
    set i | 0 <= i < |items| && WantsManifest(items[i], env) :: ManifestPath(outDir, items[i].sampleKey)
  }

  /** The paths of a non-empty item list: the first item's, then the rest's. */
  lemma ManifestPathsSplit(items: seq<Item>, outDir: string, env: Env)
    requires |items| > 0
    ensures ManifestPaths(items, outDir, env)
            == ManifestPaths(items[..1], outDir, env) + ManifestPaths(items[1..], outDir, env)
  {
    forall path | path in ManifestPaths(items, outDir, env)
      ensures path in ManifestPaths(items[..1], outDir, env) + ManifestPaths(items[1..], outDir, env)
    {
      var i :| 0 <= i < |items| && WantsManifest(items[i], env) && ManifestPath(outDir, items[i].sampleKey) == path;
      if i > 0 {
        assert items[1..][i - 1] == items[i];
      } else {
        assert items[..1][0] == items[0];
      }
    }
  }

  /** Writes the manifests of `items` in order; a later item overwrites an
      earlier one with the same manifest path (see `LastWriterWins`). */
  function WriteManifests(manifests: map<string, Item>, items: seq<Item>, outDir: string, env: Env): (m: map<string, Item>)
    ensures m.Keys == manifests.Keys + ManifestPaths(items, outDir, env)
    ensures forall path :: path in manifests && path !in ManifestPaths(items, outDir, env) ==> m[path] == manifests[path]
    ensures forall path :: path in ManifestPaths(items, outDir, env) ==>
              m[path] in items && WantsManifest(m[path], env) && ManifestPath(outDir, m[path].sampleKey) == path
    decreases |items|
  {
    if |items| == 0 then manifests
    else
      var next := if WantsManifest(items[0], env)
                  then manifests[ManifestPath(outDir, items[0].sampleKey) := items[0]]
                  else manifests;
      ManifestPathsSplit(items, outDir, env);
      var m := WriteManifests(next, items[1..], outDir, env);
      assert forall x :: x in items[1..] ==> x in items;
      m
  }

  /** The last item written to a manifest path is the one the file holds. */
  lemma {:induction false} LastWriterWins(manifests: map<string, Item>, items: seq<Item>, outDir: string, env: Env, i: nat)
    requires i < |items| && WantsManifest(items[i], env)
    requires forall j :: i < j < |items| && WantsManifest(items[j], env) ==>
               ManifestPath(outDir, items[j].sampleKey) != ManifestPath(outDir, items[i].sampleKey)
    ensures ManifestPath(outDir, items[i].sampleKey) in WriteManifests(manifests, items, outDir, env)
    ensures WriteManifests(manifests, items, outDir, env)[ManifestPath(outDir, items[i].sampleKey)] == items[i]
    decreases |items|
  {
    var path := ManifestPath(outDir, items[i].sampleKey);
    var next := if WantsManifest(items[0], env)
                then manifests[ManifestPath(outDir, items[0].sampleKey) := items[0]]
                else manifests;
    assert WriteManifests(manifests, items, outDir, env) == WriteManifests(next, items[1..], outDir, env);
    if i == 0 {
      assert path !in ManifestPaths(items[1..], outDir, env) by {
        forall j | 0 <= j < |items[1..]| && WantsManifest(items[1..][j], env)
          ensures ManifestPath(outDir, items[1..][j].sampleKey) != path
        {
          assert items[1..][j] == items[j + 1];
        }
      }
    } else {
      forall j | i - 1 < j < |items[1..]| && WantsManifest(items[1..][j], env)
        ensures ManifestPath(outDir, items[1..][j].sampleKey) != ManifestPath(outDir, items[1..][i - 1].sampleKey)
      {
        assert items[1..][j] == items[j + 1];
      }
      LastWriterWins(next, items[1..], outDir, env, i - 1);
    }
  }

  function ToRow(runId: string, item: Item): ResultRow {
    ResultRow(runId, item.sampleKey, item.score, item.verdict, item.outputPath, item.detail, item.summary)
  }

  /** One row per item, in item order, all belonging to `runId`. */
  function ToRows(runId: string, items: seq<Item>): (rows: seq<ResultRow>)
    ensures |rows| == |items|
    ensures forall i :: 0 <= i < |items| ==> rows[i].runId == runId
    ensures forall i :: 0 <= i < |items| ==>
              rows[i].sampleKey == items[i].sampleKey && rows[i].verdict == items[i].verdict
    ensures forall i :: 0 <= i < |items| ==>
              rows[i] == ResultRow(runId, items[i].sampleKey, items[i].score, items[i].verdict,
                                   items[i].outputPath, items[i].detail, items[i].summary)
  {
    seq(|items|, i requires 0 <= i < |items| => ToRow(runId, items[i]))
  }

  /** How many items were judged ok. */
  function CountOk(items: seq<Item>): (n: nat)
    ensures n <= |items|
    ensures n == 0 <== forall i :: 0 <= i < |items| ==> items[i].verdict == Ng
    ensures n == |items| <== forall i :: 0 <= i < |items| ==> items[i].verdict == Ok
    decreases |items|
  {
    if |items| == 0 then 0
    else (if items[0].verdict == Ok then 1 else 0) + CountOk(items[1..])
  }

  function IsOkRow(row: ResultRow): bool {
    row.verdict == Ok
  }

  /** The summary's `ok` is the number of persisted rows whose verdict is
      "ok". */
  lemma {:induction false} CountOkMatchesRows(runId: string, items: seq<Item>)
    ensures CountOk(items) == |Filter(ToRows(runId, items), IsOkRow)|
    decreases |items|
  {
    if |items| > 0 {
      CountOkMatchesRows(runId, items[1..]);
      assert ToRows(runId, items)[1..] == ToRows(runId, items[1..]);
    }
  }

  /** `summary_json` of a completed run. */
  function Summarize(items: seq<Item>, outDir: string): (s: RunSummary)
    ensures s.total == |items| && s.ok <= s.total
    ensures s.total == s.ok + s.ng && s.ng >= 0
    ensures s.outputDir == outDir
  {
    var ok := CountOk(items);
    RunSummary(|items|, ok, |items| - ok, outDir)
  }

  /** The job's first commit: the run becomes `running` with `started_at`
      set, and this is committed before anything else happens. */
  function Start(s: Store, runId: string): (s': Store)
    requires runId in s.runs
    ensures s'.runs.Keys == s.runs.Keys && s'.clock > s.clock
    ensures s'.runs[runId] == s.runs[runId].(status := Running, startedAt := Some(s'.clock))
    ensures forall id :: id in s.runs && id != runId ==> s'.runs[id] == s.runs[id]
    ensures s'.results == s.results && s'.manifests == s.manifests
    ensures s'.projects == s.projects && s'.datasets == s.datasets && s'.models == s.models
  {
    var t := s.clock + 1;
    s.(runs := s.runs[runId := s.runs[runId].(status := Running, startedAt := Some(t))], clock := t)
  }

  /** Scoring: load the dataset and model, resolve the adapter and run it
      over the dataset's raw directory. */
  function Produce(s: Store, run: Run, env: Env): (r: Result<seq<Item>, Fault>)
    requires ValidOracle(env.oracle)
    ensures run.datasetId !in s.datasets || FindModel(s.models, run.modelId).None? ==> r == Failure(DatasetOrModelMissing)
    ensures run.datasetId in s.datasets && FindModel(s.models, run.modelId).Some? ==>
              var model := FindModel(s.models, run.modelId).value;
              GetAdapter(model.backend, model.taskType).Failure? ==>
                r == GetAdapter(model.backend, model.taskType).PropagateFailure()
    ensures run.datasetId in s.datasets && FindModel(s.models, run.modelId).Some? ==>
              var model := FindModel(s.models, run.modelId).value;
              var dirPath := DatasetDir(s.datasets[run.datasetId]);
              GetAdapter(model.backend, model.taskType).Success? ==>
                r == RunAdapter(GetAdapter(model.backend, model.taskType).value, dirPath, DirAt(env, dirPath), run.params, env.oracle)
  {
    if run.datasetId !in s.datasets || FindModel(s.models, run.modelId).None? then Failure(DatasetOrModelMissing)
    else
      var dataset := s.datasets[run.datasetId];
      var model := FindModel(s.models, run.modelId).value;
      var dirPath := DatasetDir(dataset);
      match GetAdapter(model.backend, model.taskType)
      case Failure(f) => Failure(f)
      case Success(adapter) => RunAdapter(adapter, dirPath, DirAt(env, dirPath), run.params, env.oracle)
  }

  /** The generic failure handler: the run is marked failed with the
      fault's message. */
  function Fail(s: Store, runId: string, f: Fault, t: nat): Store
    requires runId in s.runs
  {
    s.(runs := s.runs[runId := s.runs[runId].(status := Failed, error := Some(f), finishedAt := Some(t))], clock := t)
  }

  /** Everything after the first commit, once the run is `running`. A
      fault before the result rows are touched leaves them as they were.
      Otherwise the run's rows
      are deleted and one row per item is inserted; a manifest write that
      raises ends the run `failed`, and the handler's commit keeps the
      deletion and the rows added before the failing item. */
  function Finish(s: Store, runId: string, env: Env): (s': Store)
    requires runId in s.runs && ValidOracle(env.oracle)
    ensures s'.runs.Keys == s.runs.Keys && s'.clock == s.clock + 1
    ensures forall id :: id in s.runs && id != runId ==> s'.runs[id] == s.runs[id]
    ensures s'.projects == s.projects && s'.datasets == s.datasets && s'.models == s.models
    ensures var before := s.runs[runId];
            var after := s'.runs[runId];
            && (after.status == Done || after.status == Failed)
            && after.finishedAt == Some(s'.clock) && after.startedAt == before.startedAt
            && after.id == before.id && after.projectId == before.projectId
            && after.datasetId == before.datasetId && after.modelId == before.modelId
            && after.params == before.params && after.createdAt == before.createdAt
  {
    var run := s.runs[runId];
    var t := s.clock + 1;
    match Produce(s, run, env)
    case Failure(f) => Fail(s, runId, f, t)
    case Success(items) =>
      var outDir := OutputDir(run);
      var k := FirstWriteFailure(items, outDir, env);
      var written := WriteManifests(s.manifests, items[..k], outDir, env);
      var s1 := s.(results := WithoutRun(s.results, runId) + ToRows(runId, items[..k]), manifests := written, clock := t);
      if k < |items| then
        var path := ManifestPath(outDir, items[k].sampleKey);
        Fail(s1, runId, ManifestWriteFailed(path, env.writeErrors[path]), t)
      else
        s1.(runs := s.runs[runId := run.(status := Done, summary := Some(Summarize(items, outDir)), finishedAt := Some(t))])
  }

  /** `_run_inference_background(run_id)`: nothing happens for an unknown
      run; otherwise it is started and finished. */
  function Execute(s: Store, runId: string, env: Env): (s': Store)
    requires ValidOracle(env.oracle)
    ensures runId !in s.runs ==> s' == s
    ensures runId in s.runs ==> runId in s'.runs && (s'.runs[runId].status == Done || s'.runs[runId].status == Failed)
  {
    if runId !in s.runs then s else Finish(Start(s, runId), runId, env)
  }

  /** The run moves `running -> done | failed`: it ends terminal with
      `started_at < finished_at`, its references, parameters and creation
      time unchanged, and no run is added or removed. */
  lemma ExecuteLifecycle(s: Store, runId: string, env: Env)
    requires ValidOracle(env.oracle) && runId in s.runs
    ensures var s' := Execute(s, runId, env);
            var before := s.runs[runId];
            var after := s'.runs[runId];
            && s'.runs.Keys == s.runs.Keys
            && (after.status == Done || after.status == Failed)
            && after.startedAt.Some? && after.finishedAt.Some?
            && s.clock < after.startedAt.value < after.finishedAt.value == s'.clock
            && after.id == before.id && after.projectId == before.projectId
            && after.datasetId == before.datasetId && after.modelId == before.modelId
            && after.params == before.params && after.createdAt == before.createdAt
  {
  }

  /** Only this run's record and rows change: every other run, and every
      other run's result rows, are untouched, and so are the projects,
      datasets and models. */
  lemma ExecuteIsolation(s: Store, runId: string, env: Env, other: string)
    requires ValidOracle(env.oracle) && other != runId
    ensures var s' := Execute(s, runId, env);
            && RowsOf(s'.results, other) == RowsOf(s.results, other)
            && (other in s.runs ==> other in s'.runs && s'.runs[other] == s.runs[other])
            && s'.projects == s.projects && s'.datasets == s.datasets && s'.models == s.models
  {
    if runId in s.runs {
      var s0 := Start(s, runId);
      var run := s0.runs[runId];
      match Produce(s0, run, env)
      case Failure(_) =>
      case Success(items) =>
        var k := FirstWriteFailure(items, OutputDir(run), env);
        ReplaceRows(s.results, runId, ToRows(runId, items[..k]), other);
    }
  }

  /** The adapter's outcome for a run, once the run is `running`. */
  function Produced(s: Store, runId: string, env: Env): Result<seq<Item>, Fault>
    requires ValidOracle(env.oracle) && runId in s.runs
  {
    var s0 := Start(s, runId);
    Produce(s0, s0.runs[runId], env)
  }

  /** A fault before the rows are touched (missing dataset or model,
      unsupported adapter, a scorer error) fails the run with that fault and
      leaves every result row and manifest as it was. */
  lemma ExecuteFault(s: Store, runId: string, env: Env)
    requires ValidOracle(env.oracle) && runId in s.runs
    requires Produced(s, runId, env).Failure?
    ensures var s' := Execute(s, runId, env);
            var after := s'.runs[runId];
            && after.status == Failed && after.error == Some(Produced(s, runId, env).error)
            && after.summary == s.runs[runId].summary
            && s'.results == s.results && s'.manifests == s.manifests
  {
  }

  /** Once the adapter has produced its items, the run's rows become one row
      per item in adapter order, up to the first item whose manifest write
      raises. With no such item the run is `done` with the summary of all
      items; otherwise it is `failed` with that write's error. */
  lemma ExecuteReplacesRows(s: Store, runId: string, env: Env)
    requires ValidOracle(env.oracle) && runId in s.runs
    requires Produced(s, runId, env).Success?
    ensures var items := Produced(s, runId, env).value;
            var outDir := OutputDir(s.runs[runId]);
            var k := FirstWriteFailure(items, outDir, env);
            var s' := Execute(s, runId, env);
            var after := s'.runs[runId];
            && RowsOf(s'.results, runId) == ToRows(runId, items[..k])
            && s'.manifests == WriteManifests(s.manifests, items[..k], outDir, env)
            && (k == |items| ==>
                  && after.status == Done && after.summary == Some(Summarize(items, outDir))
                  && after.error == s.runs[runId].error)
            && (k < |items| ==>
                  && after.status == Failed
                  && after.error == Some(ManifestWriteFailed(ManifestPath(outDir, items[k].sampleKey),
                                                            env.writeErrors[ManifestPath(outDir, items[k].sampleKey)]))
                  && after.summary == s.runs[runId].summary)
  {
    var items := Produced(s, runId, env).value;
    var s0 := Start(s, runId);
    assert OutputDir(s0.runs[runId]) == OutputDir(s.runs[runId]);
    var k := FirstWriteFailure(items, OutputDir(s.runs[runId]), env);
    ReplaceRows(s.results, runId, ToRows(runId, items[..k]), runId);
  }

  /** Every execution ends `done` with a summary or `failed` with an error.
      No guard stops a terminal run from being executed again, and neither
      field is cleared: a re-run that ends `done` keeps an earlier error,
      one that ends `failed` keeps an earlier summary. */
  lemma ExecuteOutcome(s: Store, runId: string, env: Env)
    requires ValidOracle(env.oracle) && runId in s.runs
    ensures var after := Execute(s, runId, env).runs[runId];
            && (after.status == Done ==> after.error == s.runs[runId].error && after.summary.Some?)
            && (after.status == Failed ==> after.summary == s.runs[runId].summary && after.error.Some?)
  {
    if Produced(s, runId, env).Failure? {
      ExecuteFault(s, runId, env);
    } else {
      ExecuteReplacesRows(s, runId, env);
    }
  }

  /** A `done` run's summary agrees with its persisted rows:
      `total == ok + ng`, `ok <= total`, `total` is the number of rows of
      the run and `ok` the number of those whose verdict is "ok". */
  lemma DoneSummaryMatchesRows(s: Store, runId: string, env: Env)
    requires ValidOracle(env.oracle) && runId in s.runs
    requires Execute(s, runId, env).runs[runId].status == Done
    ensures var s' := Execute(s, runId, env);
            var rows := RowsOf(s'.results, runId);
            var summary := s'.runs[runId].summary;
            && summary.Some?
            && summary.value.total == summary.value.ok + summary.value.ng
            && summary.value.ok <= summary.value.total
            && summary.value.total == |rows|
            && summary.value.ok == |Filter(rows, IsOkRow)|
  {
    if Produced(s, runId, env).Failure? {
      ExecuteFault(s, runId, env);
    } else {
      ExecuteReplacesRows(s, runId, env);
      var items := Produced(s, runId, env).value;
      var k := FirstWriteFailure(items, OutputDir(s.runs[runId]), env);
      assert items[..k] == items;
      CountOkMatchesRows(runId, items);
    }
  }

  /** For a run that has neither a summary nor an error yet (as every newly
      created run), the outcome is exclusive: `done` with a summary and no
      error, or `failed` with an error and no summary. */
  lemma FreshRunOutcomeExclusive(s: Store, runId: string, env: Env)
    requires ValidOracle(env.oracle) && runId in s.runs
    requires s.runs[runId].summary.None? && s.runs[runId].error.None?
    ensures var after := Execute(s, runId, env).runs[runId];
            && (after.status == Done <==> after.summary.Some?)
            && (after.status == Failed <==> after.error.Some?)
            && !(after.summary.Some? && after.error.Some?)
  {
    ExecuteOutcome(s, runId, env);
  }

}

=== FILE: paths.dfy ===
/** POSIX path helpers with the meaning `pathlib.PurePosixPath` gives them.
    Paths are plain strings with `/` separators. */
module Paths {
  import opened Strings

  /** `dir / name` rendered with `as_posix()`. */
  function Join(dir: string, name: string): string {
    dir + "/" + name
  }

  /** Position of the last `c` in `s`, or -1 (`str.rfind`). */
  function LastIndexOf(s: string, c: char): (i: int)
    ensures -1 <= i < |s|
    ensures i >= 0 ==> s[i] == c
    ensures forall j :: i < j < |s| ==> s[j] != c
    decreases |s|
  {
    if |s| == 0 then -1
    else if s[|s| - 1] == c then |s| - 1
    else LastIndexOf(s[..|s| - 1], c)
  }

  /** `PurePath.suffix` of a file name: from the last dot on, provided the
      dot is neither the first character nor the last one. */
  function Suffix(name: string): string {
    var i := LastIndexOf(name, '.');
    if 0 < i < |name| - 1 then name[i..] else ""
  }

  /** `ext` (lower case, one leading dot) ends `name`, letter case aside,
      after a non-empty stem. */
  predicate HasExtension(name: string, ext: string) {
    |name| > |ext| && Lower(name[|name| - |ext|..]) == ext
  }

  /** An extension as the adapters spell them: a dot and then no dot. */
  predicate IsExtension(ext: string) {
    |ext| >= 2 && ext[0] == '.' && '.' !in ext[1..]
  }

  lemma LowerCharDot(c: char)
    ensures LowerChar(c) == '.' <==> c == '.'
  {
  }

  /** `name`'s lower-cased suffix is `ext` exactly when `name` is a non-empty
      stem followed by `ext` in any letter case. */
  lemma SuffixIsExtension(name: string, ext: string)
    requires IsExtension(ext)
    ensures Lower(Suffix(name)) == ext <==> HasExtension(name, ext)
  {
    var i := LastIndexOf(name, '.');
    if HasExtension(name, ext) {
      var k := |name| - |ext|;
      var tail := name[k..];
      assert Lower(tail) == ext;
      assert LowerChar(name[k]) == '.' by { assert Lower(tail)[0] == LowerChar(tail[0]); }
      LowerCharDot(name[k]);
      forall j | k < j < |name| ensures name[j] != '.' {
        assert LowerChar(tail[j - k]) == ext[j - k];
        assert ext[j - k] in ext[1..];
        LowerCharDot(name[j]);
      }
      assert i == k;
    }
    if Lower(Suffix(name)) == ext {
      assert Suffix(name) != "";
      assert 0 < i < |name| - 1;
    }
  }

  /** Index just past the last `/` of `p`, or 0 when there is none. */
  function LastComponentStart(p: string): (k: nat)
    ensures k <= |p|
    ensures k > 0 ==> p[k - 1] == '/'
    ensures forall j :: k <= j < |p| ==> p[j] != '/'
    ensures |p| > 0 && p[|p| - 1] != '/' ==> k < |p|
    decreases |p|
  {
    if |p| == 0 || p[|p| - 1] == '/' then |p|
    else LastComponentStart(p[..|p| - 1])
  }

  /** A single path component that `PurePosixPath` keeps as it is. */
  predicate PlainComponent(name: string) {
    |name| > 0 && name != "." && '/' !in name
  }

  /** A relative path that `PurePosixPath` renders back unchanged: it is
      not empty, neither starts nor ends with '/', and has no empty and no
      `.` component. */
  predicate NormalRelative(p: string) {
    && |p| > 0 && p[0] != '/' && p[|p| - 1] != '/'
    && (forall i :: 0 <= i < |p| - 1 ==> !(p[i] == '/' && p[i + 1] == '/'))
    && (forall i :: 0 <= i < |p| && p[i] == '.' ==>
          (i > 0 && p[i - 1] != '/') || (i + 1 < |p| && p[i + 1] != '/'))
  }

  /** `PurePosixPath(p).name`: the last component once empty and `.`
      components are dropped, or the empty string when none is left. */
  function BaseName(p: string): (r: string)
    ensures '/' !in r
    ensures r != "."
    decreases |p|
  {
    if |p| == 0 then ""
    else if p[|p| - 1] == '/' then BaseName(p[..|p| - 1])
    else
      var k := LastComponentStart(p);
      if p[k..] == "." then BaseName(p[..k]) else p[k..]
  }

  /** A plain component is its own base name. */
  lemma BaseNameOfPlain(name: string)
    requires PlainComponent(name)
    ensures BaseName(name) == name
  {
    assert LastComponentStart(name) == 0;
  }

  /** Joining a directory and a plain component, then taking the base name,
      gives the component back. */
  lemma BaseNameOfJoin(dir: string, name: string)
    requires PlainComponent(name)
    ensures BaseName(Join(dir, name)) == name
  {
    var p := Join(dir, name);
    var k := LastComponentStart(p);
    assert p[|dir|] == '/';
    assert forall j :: |dir| < j < |p| ==> p[j] == name[j - |dir| - 1];
    assert k == |dir| + 1;
    assert p[k..] == name;
  }
}

=== FILE: registry.dfy ===
/** `get_adapter`: resolves a model's (backend, modality) pair to a scorer,
    and runs the scorer it resolved to. */
module Registry {
  import opened Wrappers
  import opened Domain
  import Timeseries
  import Vision

  datatype Adapter = VisionAdapter | TimeseriesAdapter

  const DummyBackend := "dummy"

  /** The modalities a model may declare (also the filter values the model
      listing accepts). */
  const Modalities: set<string> := {"vision", "timeseries", "mixed"}

  /** The backend is checked before the modality; `mixed` runs the vision
      scorer. */
  function GetAdapter(backend: string, modality: string): (r: Result<Adapter, Fault>)
    ensures backend != DummyBackend ==> r == Failure(UnsupportedBackend(backend))
    ensures backend == DummyBackend && modality !in Modalities ==> r == Failure(UnsupportedModality(modality))
    ensures r.Success? <==> backend == DummyBackend && modality in Modalities
    ensures r == Success(TimeseriesAdapter) <==> backend == DummyBackend && modality == "timeseries"
  {
    if backend != DummyBackend then Failure(UnsupportedBackend(backend))
    else if modality == "vision" then Success(VisionAdapter)
    else if modality == "timeseries" then Success(TimeseriesAdapter)
    else if modality == "mixed" then Success(VisionAdapter)
    else Failure(UnsupportedModality(modality))
  }

  /** The supported combinations as a table. */
  const AdapterTable: map<(string, string), Adapter> := map[
    (DummyBackend, "vision") := VisionAdapter,
    (DummyBackend, "timeseries") := TimeseriesAdapter,
    (DummyBackend, "mixed") := VisionAdapter]

  /** Resolution is a total lookup in the table: every pair yields the
      table's scorer, or exactly one of the two errors when absent. */
  lemma GetAdapterIsTableLookup(backend: string, modality: string)
    ensures (backend, modality) in AdapterTable ==> GetAdapter(backend, modality) == Success(AdapterTable[(backend, modality)])
    ensures (backend, modality) !in AdapterTable ==>
              GetAdapter(backend, modality) == Failure(UnsupportedBackend(backend))
              || GetAdapter(backend, modality) == Failure(UnsupportedModality(modality))
  {
  }

  /** Runs the resolved scorer over a dataset directory with the run's
      parameters. */
  function RunAdapter(adapter: Adapter, dirPath: string, dir: Option<Directory>, params: Option<Params>, oracle: Oracle): (r: Result<seq<Item>, Fault>)
    requires ValidOracle(oracle)
    ensures r.Success? ==> ResolveThreshold(params).Success? && dir.Some?
    ensures r.Success? ==> forall i :: 0 <= i < |r.value| ==>
              (r.value[i].verdict == Ok <==> r.value[i].score >= ResolveThreshold(params).value)
    ensures r.Success? ==> forall i :: 0 <= i < |r.value| ==>
              0.0 <= r.value[i].score <= 1.0 && r.value[i].outputPath != ""
    ensures adapter == VisionAdapter ==> r == Vision.Run(dirPath, dir, params, oracle.draws)
    ensures adapter == TimeseriesAdapter ==> r == Timeseries.Run(dirPath, dir, params, oracle.noise)
  {
    match adapter
    case VisionAdapter =>
      var r := Vision.Run(dirPath, dir, params, oracle.draws);
      r
    case TimeseriesAdapter =>
      var r := Timeseries.Run(dirPath, dir, params, oracle.noise);
      assert r.Success? ==> forall i :: 0 <= i < |r.value| ==>
               (r.value[i].verdict == Ok <==> r.value[i].score >= ResolveThreshold(params).value)
               && 0.0 <= r.value[i].score <= 1.0 && r.value[i].outputPath != "" by {
        if r.Success? {
          TimeseriesItemsValid(dirPath, dir, params, oracle.noise);
        }
      }
      r
  }

  lemma TimeseriesItemsValid(dirPath: string, dir: Option<Directory>, params: Option<Params>, noise: nat -> real)
    requires Timeseries.Run(dirPath, dir, params, noise).Success?
    ensures var r := Timeseries.Run(dirPath, dir, params, noise);
            forall i :: 0 <= i < |r.value| ==>
              (r.value[i].verdict == Ok <==> r.value[i].score >= ResolveThreshold(params).value)
              && 0.0 <= r.value[i].score <= 1.0 && r.value[i].outputPath != ""
  {
    Timeseries.RunLayout(dirPath, dir, params, noise);
  }
}

=== FILE: scenarios.dfy ===
/** Concrete runs worked end to end: one CSV dataset scored by the
    time-series scorer, and the lifecycle of a run whose model names an
    unregistered backend. */
module Scenarios {
  import opened Wrappers
  import opened Seqs
  import opened Paths
  import opened Domain
  import opened S = Store
  import Timeseries
  import Executor
  import Registry

  /** Two rows whose cell lengths sum to 3 and 1. */
  const SampleRows: seq<Row> := [["ab", "c"], ["x"]]

  function SampleRead(name: string): CsvRead {
    if name == "a.csv" then Rows(SampleRows) else ReadError("not a table")
  }

  /** A directory holding one CSV file and one other file. */
  const SampleDir := Directory(["a.csv", "notes.txt"], SampleRead)

  function NoNoise(k: nat): real {
    0.0
  }

  const LowThreshold: Params := map[ThresholdKey := Convertible(0.02)]

  lemma CsvNameSelected()
    ensures HasExtension("a.csv", Timeseries.CsvExtension)
  {
    var tail := "a.csv"[1..];
    assert tail == ".csv";
    var l := Strings.Lower(tail);
    assert l[0] == '.' && l[1] == 'c' && l[2] == 's' && l[3] == 'v';
    assert l == ".csv";
  }

  lemma TextNameSkipped()
    ensures !HasExtension("notes.txt", Timeseries.CsvExtension)
  {
    var tail := "notes.txt"[5..];
    assert tail[1] == 't';
    assert Strings.Lower(tail)[1] == 't';
  }

  /** A sequence without repeats whose elements all equal `x` has at most
      one element. */
  lemma SingleValued(r: seq<string>, x: string)
    requires Distinct(r)
    ensures (forall i :: 0 <= i < |r| ==> r[i] == x) ==> |r| <= 1
  {
    if |r| >= 2 {
      assert r[0] != r[1];
    }
  }

  /** A listing with exactly one CSV file selects just that file. */
  lemma OnlyCsvFile(names: seq<string>, x: string)
    requires Distinct(names) && x in names && HasExtension(x, Timeseries.CsvExtension)
    requires forall i :: 0 <= i < |names| && names[i] != x ==> !HasExtension(names[i], Timeseries.CsvExtension)
    ensures Timeseries.CsvFiles(names) == [x]
  {
    var r := Timeseries.CsvFiles(names);
    assert forall i :: 0 <= i < |r| ==> r[i] == x;
    assert x in r;
    SingleValued(r, x);
  }

  /** Only `a.csv` is selected: `notes.txt` has another extension. */
  lemma SampleCsvFiles()
    ensures Timeseries.CsvFiles(SampleDir.names) == ["a.csv"]
  {
    CsvNameSelected();
    TextNameSkipped();
    OnlyCsvFile(SampleDir.names, "a.csv");
  }

  /** Reading a single readable file gives its table. */
  lemma ReadSingle(dirPath: string, read: string -> CsvRead, name: string, rows: seq<Row>)
    requires read(name) == Rows(rows)
    ensures Timeseries.ReadTables(dirPath, [name], read) == Success([rows])
  {
    var t := Timeseries.ReadTables(dirPath, [name], read);
    assert [name][0] == name;
    assert t.Success?;
    assert |t.value| == 1 && t.value[0] == rows;
    assert t.value == [rows];
  }

  /** A single file's results are all the directory's results. */
  lemma DirResultsSingle(dirPath: string, name: string, rows: seq<Row>, threshold: real, noise: nat -> real)
    ensures Timeseries.DirResults(dirPath, [name], [rows], threshold, noise)
            == Timeseries.FileResults(dirPath, name, rows, threshold, noise, 0)
  {
    assert [name][0] == name && [rows][0] == rows;
    assert Timeseries.Offset([rows], 0) == 0;
  }

  /** A directory with a single CSV file yields that file's results. */
  lemma SingleFileRun(dirPath: string, dir: Directory, params: Option<Params>, threshold: real, noise: nat -> real, name: string, rows: seq<Row>)
    requires Timeseries.CsvFiles(dir.names) == [name]
    requires dir.read(name) == Rows(rows)
    requires ResolveThreshold(params) == Success(threshold)
    ensures Timeseries.Run(dirPath, Some(dir), params, noise) == Success(Timeseries.FileResults(dirPath, name, rows, threshold, noise, 0))
  {
    ReadSingle(dirPath, dir.read, name, rows);
    DirResultsSingle(dirPath, name, rows, threshold, noise);
  }

  /** Each row of `a.csv` becomes one result keyed `a.csv:row:<index>`,
      scored from its cell lengths (0.03 and 0.01) and judged against the
      requested threshold. */
  lemma TimeseriesScenario()
    ensures var r := Timeseries.Run("d", Some(SampleDir), Some(LowThreshold), NoNoise);
            && r.Success? && |r.value| == 2
            && r.value[0].sampleKey == "a.csv:row:0" && r.value[1].sampleKey == "a.csv:row:1"
            && r.value[0].outputPath == "d/a.csv"
            && r.value[0].score == 0.03 && r.value[0].verdict == Ok
            && r.value[1].score == 0.01 && r.value[1].verdict == Ng
  {
    SampleCsvFiles();
    assert ResolveThreshold(Some(LowThreshold)) == Success(0.02);
    SingleFileRun("d", SampleDir, Some(LowThreshold), 0.02, NoNoise, "a.csv", SampleRows);
    var items := Timeseries.FileResults("d", "a.csv", SampleRows, 0.02, NoNoise, 0);
    assert Timeseries.Run("d", Some(SampleDir), Some(LowThreshold), NoNoise) == Success(items);
    SampleItems("d", NoNoise);
    SampleOutputPath();
  }

  lemma SampleOutputDir()
    ensures Executor.OutputDir(TimeseriesStore.runs["r"]) == "storage/p/runs/r/outputs"
  {
  }

  lemma SampleOutputPath()
    ensures Join("d", "a.csv") == "d/a.csv"
  {
  }

  lemma SampleKeys()
    ensures Timeseries.RowKey("a.csv", 0) == "a.csv:row:0"
    ensures Timeseries.RowKey("a.csv", 1) == "a.csv:row:1"
  {
    assert Strings.NatToString(0) == "0" && Strings.NatToString(1) == "1";
  }

  lemma SampleScores()
    ensures Timeseries.Clamp(Timeseries.RowBase(SampleRows[0]) + 0.0) == 0.03
    ensures Timeseries.Clamp(Timeseries.RowBase(SampleRows[1]) + 0.0) == 0.01
  {
    assert Timeseries.SumOfLengths(SampleRows[0]) == 3;
    assert Timeseries.SumOfLengths(SampleRows[1]) == 1;
  }

  /** The two results of `a.csv` at threshold 0.02. */
  lemma SampleItems(dirPath: string, noise: nat -> real)
    requires noise(0) == 0.0 && noise(1) == 0.0
    ensures var items := Timeseries.FileResults(dirPath, "a.csv", SampleRows, 0.02, noise, 0);
            && |items| == 2
            && items[0].sampleKey == "a.csv:row:0" && items[1].sampleKey == "a.csv:row:1"
            && items[0].outputPath == Join(dirPath, "a.csv")
            && items[0].score == 0.03 && items[0].verdict == Ok
            && items[1].score == 0.01 && items[1].verdict == Ng
  {
    var items := Timeseries.FileResults(dirPath, "a.csv", SampleRows, 0.02, noise, 0);
    SampleKeys();
    SampleScores();
    assert Timeseries.RowResult(items[0], dirPath, "a.csv", 0, SampleRows[0], 0.02, noise(0));
    assert Timeseries.RowResult(items[1], dirPath, "a.csv", 1, SampleRows[1], 0.02, noise(1));
  }

  /** A store with one queued run whose model has backend `onnx`. */
  const OnnxStore := S.Store(
    {"p"},
    map["ds" := DatasetRecord("ds", "p")],
    [ModelRecord("m", "Onnx Vision", "vision", "onnx", "v1")],
    map["r" := Run("r", "p", "ds", "m", Queued, None, None, None, 0, None, None)],
    [],
    map[],
    0)

  /** The run fails with "Unsupported backend: onnx", stores no results and
      no summary, and its timestamps are ordered. */
  lemma UnsupportedBackendScenario(env: Executor.Env)
    requires ValidOracle(env.oracle)
    ensures var s := Executor.Execute(OnnxStore, "r", env);
            && s.runs["r"].status == Failed
            && s.runs["r"].error == Some(UnsupportedBackend("onnx"))
            && Message(s.runs["r"].error.value) == "Unsupported backend: onnx"
            && s.runs["r"].summary.None?
            && s.results == []
  {
    var s1 := Executor.Start(OnnxStore, "r");
    assert FindModel(s1.models, "m") == Some(OnnxStore.models[0]);
    assert Executor.Produce(s1, s1.runs["r"], env) == Failure(UnsupportedBackend("onnx"));
  }

  /** The same dataset run through the whole pipeline: a dummy time-series
      model, the dataset's raw directory holding `a.csv`, and no manifest
      write that raises. */
  const TimeseriesStore := S.Store(
    {"p"},
    map["ds" := DatasetRecord("ds", "p")],
    [ModelRecord("m", "Dummy Timeseries v1", "timeseries", "dummy", "v1")],
    map["r" := Run("r", "p", "ds", "m", Queued, Some(LowThreshold), None, None, 0, None, None)],
    [],
    map[],
    0)

  predicate SampleEnv(env: Executor.Env) {
    var dirPath := Executor.DatasetDir(DatasetRecord("ds", "p"));
    && env.oracle.noise(0) == 0.0 && env.oracle.noise(1) == 0.0
    && dirPath in env.dirs && env.dirs[dirPath].names == SampleDir.names
    && env.dirs[dirPath].read("a.csv") == Rows(SampleRows)
    && env.writeErrors == map[]
  }

  /** The run resolves to the time-series scorer over the dataset's raw
      directory. */
  lemma ProducedByTimeseries(env: Executor.Env)
    requires ValidOracle(env.oracle) && SampleEnv(env)
    ensures var dirPath := Executor.DatasetDir(DatasetRecord("ds", "p"));
            Executor.Produced(TimeseriesStore, "r", env)
            == Timeseries.Run(dirPath, Some(env.dirs[dirPath]), Some(LowThreshold), env.oracle.noise)
  {
    var dirPath := Executor.DatasetDir(DatasetRecord("ds", "p"));
    var s0 := Executor.Start(TimeseriesStore, "r");
    assert s0.runs["r"] == TimeseriesStore.runs["r"].(status := Running, startedAt := Some(1));
    assert FindModel(s0.models, "m") == Some(TimeseriesStore.models[0]);
    assert Registry.GetAdapter("dummy", "timeseries") == Success(Registry.TimeseriesAdapter);
    assert Executor.DirAt(env, dirPath) == Some(env.dirs[dirPath]);
  }

  /** The scorer's items for the run. */
  lemma ProducedSample(env: Executor.Env)
    requires ValidOracle(env.oracle) && SampleEnv(env)
    ensures var dirPath := Executor.DatasetDir(DatasetRecord("ds", "p"));
            Executor.Produced(TimeseriesStore, "r", env)
            == Success(Timeseries.FileResults(dirPath, "a.csv", SampleRows, 0.02, env.oracle.noise, 0))
  {
    var dirPath := Executor.DatasetDir(DatasetRecord("ds", "p"));
    var dir := env.dirs[dirPath];
    ProducedByTimeseries(env);
    SampleCsvFiles();
    assert ResolveThreshold(Some(LowThreshold)) == Success(0.02);
    SingleFileRun(dirPath, dir, Some(LowThreshold), 0.02, env.oracle.noise, "a.csv", SampleRows);
  }

  /** With no write error registered, every manifest write succeeds. */
  lemma NoWriteFailure(items: seq<Item>, outDir: string, env: Executor.Env)
    requires env.writeErrors == map[]
    ensures Executor.FirstWriteFailure(items, outDir, env) == |items|
  {
  }

  /** One of the two sample items is "ok". */
  lemma SampleOkCount(items: seq<Item>)
    requires |items| == 2 && items[0].verdict == Ok && items[1].verdict == Ng
    ensures Executor.Summarize(items, "storage/p/runs/r/outputs") == RunSummary(2, 1, 1, "storage/p/runs/r/outputs")
  {
    assert Executor.CountOk(items[1..][1..]) == 0;
    assert Executor.CountOk(items[1..]) == 0;
    assert Executor.CountOk(items) == 1;
  }

  /** A run whose scorer produces `items` and whose manifest writes all
      succeed ends `done`, with one row per item and their summary. */
  lemma DoneWith(s: S.Store, runId: string, env: Executor.Env, items: seq<Item>)
    requires ValidOracle(env.oracle) && runId in s.runs
    requires Executor.Produced(s, runId, env) == Success(items)
    requires Executor.FirstWriteFailure(items, Executor.OutputDir(s.runs[runId]), env) == |items|
    ensures var s' := Executor.Execute(s, runId, env);
            && s'.runs[runId].status == Done
            && s'.runs[runId].error == s.runs[runId].error
            && s'.runs[runId].summary == Some(Executor.Summarize(items, Executor.OutputDir(s.runs[runId])))
            && RowsOf(s'.results, runId) == Executor.ToRows(runId, items)
  {
    Executor.ExecuteReplacesRows(s, runId, env);
    assert items[..|items|] == items;
  }

  /** The run ends `done` with two rows and the summary total 2, ok 1,
      ng 1. */
  lemma DoneScenario(env: Executor.Env)
    requires ValidOracle(env.oracle) && SampleEnv(env)
    ensures var s := Executor.Execute(TimeseriesStore, "r", env);
            var rows := RowsOf(s.results, "r");
            && s.runs["r"].status == Done
            && s.runs["r"].error.None?
            && s.runs["r"].summary == Some(RunSummary(2, 1, 1, "storage/p/runs/r/outputs"))
            && |rows| == 2 && rows[0].sampleKey == "a.csv:row:0" && rows[1].sampleKey == "a.csv:row:1"
  {
    var dirPath := Executor.DatasetDir(DatasetRecord("ds", "p"));
    ProducedSample(env);
    var items := Timeseries.FileResults(dirPath, "a.csv", SampleRows, 0.02, env.oracle.noise, 0);
    SampleItems(dirPath, env.oracle.noise);
    SampleOutputDir();
    var outDir := Executor.OutputDir(TimeseriesStore.runs["r"]);
    NoWriteFailure(items, outDir, env);
    SampleOkCount(items);
    DoneWith(TimeseriesStore, "r", env, items);
  }
}

=== FILE: scheduler.dfy ===
/** The request handlers around the executor: `create_inference_run`
    (admission checks and dispatch), `list_inference_results` (paging) and
    the modality check of `list_models`. */
module Scheduler {
  import opened Wrappers
  import opened Strings
  import opened Seqs
  import opened Domain
  import opened Registry
  import opened Store
  import opened Executor
  import opened Paths

  /** The HTTP errors these handlers raise: 404 and 400 with their
      `detail` text, 422 for a query parameter out of range, 500 for an
      exception escaping the handler. */
  datatype ApiError = NotFound(detail: string) | BadRequest(detail: string) | InvalidQuery | InternalError

  const ProjectNotFound := NotFound("Project not found")
  const DatasetNotFound := NotFound("Dataset not found")
  const ModelNotFound := NotFound("Model not found")
  const InvalidModality := BadRequest("Invalid modality")

  /** `create_inference_run`: project, then dataset, then model must exist;
      the first missing one is reported and nothing is stored. Otherwise a
      `queued` run holding the given params is stored under `newId` (a
      fresh uuid). */
  function CreateRun(s: Store, projectId: string, datasetId: string, modelId: string, params: Option<Params>, newId: string): (r: (Result<Run, ApiError>, Store))
    requires newId !in s.runs
    ensures projectId !in s.projects ==> r == (Failure(ProjectNotFound), s)
    ensures projectId in s.projects && datasetId !in s.datasets ==> r == (Failure(DatasetNotFound), s)
    ensures projectId in s.projects && datasetId in s.datasets && FindModel(s.models, modelId).None? ==>
              r == (Failure(ModelNotFound), s)
    ensures r.0.Success? <==> projectId in s.projects && datasetId in s.datasets && FindModel(s.models, modelId).Some?
    ensures r.0.Success? ==>
              var run := r.0.value;
              && run.id == newId && run.projectId == projectId && run.datasetId == datasetId && run.modelId == modelId
              && run.status == Queued && run.params == params
              && run.summary.None? && run.error.None? && run.startedAt.None? && run.finishedAt.None?
              && r.1.runs == s.runs[newId := run]
              && r.1.results == s.results && r.1.manifests == s.manifests
              && r.1.projects == s.projects && r.1.datasets == s.datasets && r.1.models == s.models
  {
    if projectId !in s.projects then (Failure(ProjectNotFound), s)
    else if datasetId !in s.datasets then (Failure(DatasetNotFound), s)
    else if FindModel(s.models, modelId).None? then (Failure(ModelNotFound), s)
    else
      var t := s.clock + 1;
      var run := Run(newId, projectId, datasetId, modelId, Queued, params, None, None, t, None, None);
      (Success(run), s.(runs := s.runs[newId := run], clock := t))
  }

  /** The request as a whole: the response carries the run as committed
      (`queued`); the background task then executes it. */
  function SubmitRun(s: Store, projectId: string, datasetId: string, modelId: string, params: Option<Params>, newId: string, env: Env): (r: (Result<Run, ApiError>, Store))
    requires newId !in s.runs && ValidOracle(env.oracle)
  {
    var (response, s1) := CreateRun(s, projectId, datasetId, modelId, params, newId);
    if response.Success? then (response, Execute(s1, newId, env)) else (response, s1)
  }

  /** A created run is answered `queued` and ends `done` with a summary or
      `failed` with an error, never both; a rejected request stores
      nothing and runs nothing. */
  lemma SubmitRunOutcome(s: Store, projectId: string, datasetId: string, modelId: string, params: Option<Params>, newId: string, env: Env)
    requires newId !in s.runs && ValidOracle(env.oracle)
    ensures var (response, s') := SubmitRun(s, projectId, datasetId, modelId, params, newId, env);
            && (response.Failure? ==> s' == s)
            && (response.Success? ==>
                  && response.value.status == Queued
                  && newId in s'.runs
                  && var after := s'.runs[newId];
                  && (after.status == Done || after.status == Failed)
                  && (after.status == Done <==> after.summary.Some?)
                  && (after.status == Failed <==> after.error.Some?)
                  && after.params == params)
  {
    var (response, s1) := CreateRun(s, projectId, datasetId, modelId, params, newId);
    if response.Success? {
      FreshRunOutcomeExclusive(s1, newId, env);
      ExecuteLifecycle(s1, newId, env);
    }
  }

  const DefaultLimit := 50
  const MaxLimit := 500

  function Min(a: int, b: int): int {
    if a <= b then a else b
  }

  /** One page of a listing: at most `limit` rows, skipping the first
      `offset`. */
  function Page<T>(rows: seq<T>, offset: nat, limit: nat): (page: seq<T>)
    ensures |page| <= limit
    ensures |page| == if offset >= |rows| then 0 else Min(limit, |rows| - offset)
    ensures forall i :: 0 <= i < |page| ==> page[i] == rows[offset + i]
  {
    rows[Min(offset, |rows|)..Min(offset + limit, |rows|)]
  }

  /** The first `n` pages of size `limit`, one after the other. */
  function Pages<T>(rows: seq<T>, limit: nat, n: nat): seq<T> {
    if n == 0 then [] else Pages(rows, limit, n - 1) + Page(rows, (n - 1) * limit, limit)
  }

  /** Page `n` covers the rows from `(n - 1) * limit` up to `n * limit`. */
  lemma PageBounds<T>(rows: seq<T>, limit: nat, n: nat)
    requires n > 0
    ensures Min((n - 1) * limit, |rows|) <= Min(n * limit, |rows|)
    ensures Page(rows, (n - 1) * limit, limit) == rows[Min((n - 1) * limit, |rows|)..Min(n * limit, |rows|)]
  {
    var m := (n - 1) * limit;
    assert m + limit == n * limit;
  }

  /** Reading pages at offsets 0, limit, 2 * limit, ... yields the rows in
      order, without gaps or repeats. */
  lemma {:induction false} PagesArePrefix<T>(rows: seq<T>, limit: nat, n: nat)
    ensures Pages(rows, limit, n) == rows[..Min(n * limit, |rows|)]
  {
    if n > 0 {
      PagesArePrefix(rows, limit, n - 1);
      PageBounds(rows, limit, n);
      var a := Min((n - 1) * limit, |rows|);
      var b := Min(n * limit, |rows|);
      assert rows[..a] + rows[a..b] == rows[..b];
    }
  }

  /** Enough pages cover every row. */
  lemma PagesCoverRows<T>(rows: seq<T>, limit: nat, n: nat)
    requires n * limit >= |rows|
    ensures Pages(rows, limit, n) == rows
  {
    PagesArePrefix(rows, limit, n);
  }

  /** A result row as the endpoint returns it. */
  datatype ResultView = ResultView(row: ResultRow, staticUrl: Option<string>)

  predicate IsPrefix(prefix: string, s: string) {
    |prefix| <= |s| && s[..|prefix|] == prefix
  }

  /** The `static_url` of a row: present when `output_path` starts with
      the storage root. The guard is a string prefix test, so a path such as
      `storage_old/x.png` passes it and `relative_to` then raises. Below the
      root, a path in pathlib's normal form keeps its remainder verbatim. */
  function StaticUrl(path: string): (r: Result<Option<string>, ApiError>)
    ensures !IsPrefix(StorageRoot, path) ==> r == Success(None)
    ensures IsPrefix(StorageRoot + "/", path) && NormalRelative(path[|StorageRoot| + 1..]) ==>
              r == Success(Some("/static/" + path[|StorageRoot| + 1..]))
    ensures path == StorageRoot || path == StorageRoot + "/" ==> r == Success(Some("/static/."))
    ensures IsPrefix(StorageRoot + "/", path) ==> r.Success? && r.value.Some?
    ensures IsPrefix(StorageRoot, path) && path != StorageRoot && !IsPrefix(StorageRoot + "/", path) ==>
              r == Failure(InternalError)
  {
    if path == "" || !IsPrefix(StorageRoot, path) then Success(None)
    else if path == StorageRoot || path == StorageRoot + "/" then Success(Some("/static/."))
    else if IsPrefix(StorageRoot + "/", path) then Success(Some("/static/" + path[|StorageRoot| + 1..]))
    else Failure(InternalError)
  }

  function Views(page: seq<ResultRow>): (r: Result<seq<ResultView>, ApiError>)
    ensures r.Success? ==> |r.value| == |page| && forall i :: 0 <= i < |page| ==> r.value[i].row == page[i]
    ensures r.Success? <==> forall i :: 0 <= i < |page| ==> StaticUrl(page[i].outputPath).Success?
    ensures r.Success? ==> forall i :: 0 <= i < |page| ==> r.value[i].staticUrl == StaticUrl(page[i].outputPath).value
    ensures r.Failure? ==> r.error == InternalError
    decreases |page|
  {
    if |page| == 0 then Success([])
    else
      var url :- StaticUrl(page[0].outputPath);
      var rest :- Views(page[1..]);
      Success([ResultView(page[0], url)] + rest)
  }

  /** `list_inference_results`: `1 <= limit <= 500` and `offset >= 0`
      (defaults 50 and 0), then the run's rows from `offset` on, at most
      `limit` of them. The run itself is not looked up: an unknown run has
      no rows. */
  function ListResults(s: Store, runId: string, limit: Option<int>, offset: Option<int>): (r: Result<seq<ResultView>, ApiError>)
    ensures var lim := limit.GetOr(DefaultLimit);
            var off := offset.GetOr(0);
            && (lim < 1 || lim > MaxLimit || off < 0 ==> r == Failure(InvalidQuery))
            && (r.Success? ==>
                  && 1 <= lim <= MaxLimit && off >= 0
                  && |r.value| <= lim
                  && |r.value| == |Page(RowsOf(s.results, runId), off, lim)|
                  && forall i :: 0 <= i < |r.value| ==>
                       r.value[i].row == RowsOf(s.results, runId)[off + i] && r.value[i].row.runId == runId)
            && (1 <= lim <= MaxLimit && off >= 0 ==> r == Views(Page(RowsOf(s.results, runId), off, lim)))
  {
    var lim := limit.GetOr(DefaultLimit);
    var off := offset.GetOr(0);
    if lim < 1 || lim > MaxLimit || off < 0 then Failure(InvalidQuery)
    else Views(Page(RowsOf(s.results, runId), off, lim))
  }

  /** `list_models`: an empty or absent modality lists every model; any
      other value must be one of the three modalities and lists the models
      of that task type, in creation order. */
  function ListModels(models: seq<ModelRecord>, modality: Option<string>): (r: Result<seq<ModelRecord>, ApiError>)
    ensures r.Failure? <==> modality.Some? && modality.value != "" && modality.value !in Modalities
    ensures r.Failure? ==> r.error == InvalidModality
    ensures (modality.None? || modality == Some("")) ==> r == Success(models)
    ensures r.Success? && modality.Some? && modality.value != "" ==>
              && (forall i :: 0 <= i < |r.value| ==> r.value[i] in models && r.value[i].taskType == modality.value)
              && (forall i :: 0 <= i < |models| && models[i].taskType == modality.value ==> models[i] in r.value)
  {
    if modality.None? || modality.value == "" then Success(models)
    else if modality.value !in Modalities then Failure(InvalidModality)
    else Success(Filter(models, HasTaskType(modality.value)))
  }

  function HasTaskType(modality: string): ModelRecord -> bool {
    (m: ModelRecord) => m.taskType == modality
  }

  /** The listing filter accepts exactly the modalities the registry
      resolves for the dummy backend. */
  lemma ListingAgreesWithRegistry(models: seq<ModelRecord>, modality: string)
    requires modality != ""
    ensures ListModels(models, Some(modality)).Success? <==> GetAdapter(DummyBackend, modality).Success?
  {
  }
}

=== FILE: seed.dfy ===
/** The start-up seeding of the model catalogue with the dummy models. */
module Seed {
  import opened Wrappers
  import opened Store
  import Registry

  /** One entry of the default catalogue, without its generated id. */
  datatype ModelSpec = ModelSpec(name: string, taskType: string, backend: string, version: string)

  /** The three dummy models, one per modality, in seeding order. */
  const DefaultModels: seq<ModelSpec> := [
    ModelSpec("Dummy Vision v1", "vision", "dummy", "v1"),
    ModelSpec("Dummy Timeseries v1", "timeseries", "dummy", "v1"),
    ModelSpec("Dummy Mixed v1", "mixed", "dummy", "v1")]

  /** The names already in the catalogue. */
  function Names(models: seq<ModelRecord>): (r: set<string>)
    ensures forall i :: 0 <= i < |models| ==> models[i].name in r
    ensures forall n :: n in r ==> exists i :: 0 <= i < |models| && models[i].name == n
  {
    set i | 0 <= i < |models| :: models[i].name
  }

  /** The record a spec becomes once the store assigns it `id`. */
  function ToRecord(spec: ModelSpec, id: string): ModelRecord {
    ModelRecord(id, spec.name, spec.taskType, spec.backend, spec.version)
  }

  /** The records seeding adds, in catalogue order: one per spec whose name
      is not among `names`, carrying the id generated for that spec. */
  function Added(names: set<string>, specs: seq<ModelSpec>, ids: seq<string>): (r: seq<ModelRecord>)
    requires |ids| == |specs|
    ensures |r| <= |specs|
    decreases |specs|
  {
    if |specs| == 0 then []
    else
      var n := |specs| - 1;
      var init := Added(names, specs[..n], ids[..n]);
      if specs[n].name in names then init else init + [ToRecord(specs[n], ids[n])]
  }

  /** No added record takes a name that was already present. */
  lemma {:induction false} AddedNamesFree(names: set<string>, specs: seq<ModelSpec>, ids: seq<string>)
    requires |ids| == |specs|
    ensures forall j :: 0 <= j < |Added(names, specs, ids)| ==> Added(names, specs, ids)[j].name !in names
    decreases |specs|
  {
    if |specs| > 0 {
      var n := |specs| - 1;
      AddedNamesFree(names, specs[..n], ids[..n]);
    }
  }

  /** Every added record is the record of one of the specs. */
  lemma {:induction false} AddedOrigin(names: set<string>, specs: seq<ModelSpec>, ids: seq<string>)
    requires |ids| == |specs|
    ensures forall j :: 0 <= j < |Added(names, specs, ids)| ==>
              exists i :: 0 <= i < |specs| && Added(names, specs, ids)[j] == ToRecord(specs[i], ids[i])
    decreases |specs|
  {
    if |specs| > 0 {
      var n := |specs| - 1;
      var init := Added(names, specs[..n], ids[..n]);
      AddedOrigin(names, specs[..n], ids[..n]);
      forall j | 0 <= j < |init|
        ensures exists i :: 0 <= i < |specs| && init[j] == ToRecord(specs[i], ids[i])
      {
        var i :| 0 <= i < n && init[j] == ToRecord(specs[..n][i], ids[..n][i]);
        assert specs[..n][i] == specs[i] && ids[..n][i] == ids[i];
      }
      var r := Added(names, specs, ids);
      forall j | 0 <= j < |r|
        ensures exists i :: 0 <= i < |specs| && r[j] == ToRecord(specs[i], ids[i])
      {
        if j < |init| {
          assert r[j] == init[j];
        } else {
          assert r[j] == ToRecord(specs[n], ids[n]);
        }
      }
    } else {
      assert Added(names, specs, ids) == [];
    }
  }

  /** Every spec whose name is not present is added. */
  lemma {:induction false} AddedComplete(names: set<string>, specs: seq<ModelSpec>, ids: seq<string>)
    requires |ids| == |specs|
    ensures forall i :: 0 <= i < |specs| && specs[i].name !in names ==> ToRecord(specs[i], ids[i]) in Added(names, specs, ids)
    decreases |specs|
  {
    if |specs| > 0 {
      var n := |specs| - 1;
      var init := Added(names, specs[..n], ids[..n]);
      AddedComplete(names, specs[..n], ids[..n]);
      forall i | 0 <= i < n && specs[i].name !in names
        ensures ToRecord(specs[i], ids[i]) in init
      {
        assert specs[..n][i] == specs[i] && ids[..n][i] == ids[i];
      }
    }
  }

  /** When every spec's name is present, nothing is added. */
  lemma {:induction false} AddedNothing(names: set<string>, specs: seq<ModelSpec>, ids: seq<string>)
    requires |ids| == |specs|
    requires forall i :: 0 <= i < |specs| ==> specs[i].name in names
    ensures Added(names, specs, ids) == []
    decreases |specs|
  {
    if |specs| > 0 {
      var n := |specs| - 1;
      AddedNothing(names, specs[..n], ids[..n]);
    }
  }

  /** Extending the specs by one adds at most that spec's record. */
  lemma AddedStep(names: set<string>, specs: seq<ModelSpec>, ids: seq<string>, i: nat)
    requires |ids| == |specs| && i < |specs|
    ensures Added(names, specs[..i + 1], ids[..i + 1])
            == Added(names, specs[..i], ids[..i])
               + (if specs[i].name in names then [] else [ToRecord(specs[i], ids[i])])
  {
    assert specs[..i + 1][..i] == specs[..i];
    assert ids[..i + 1][..i] == ids[..i];
  }

  /** The loop of `seed_models` over a list of specs: each spec whose name
      was not taken when the loop began is added, with `ids[i]` as the
      generated id of `specs[i]`; `committed` records whether anything was
      added. */
  method AddMissing(models: seq<ModelRecord>, specs: seq<ModelSpec>, ids: seq<string>) returns (seeded: seq<ModelRecord>, committed: bool)
    requires |ids| == |specs|
    ensures seeded == models + Added(Names(models), specs, ids)
    ensures committed <==> |seeded| > |models|
  {
    var existing := Names(models);
    seeded := models;
    committed := false;
    var i := 0;
    while i < |specs|
      invariant 0 <= i <= |specs|
      invariant seeded == models + Added(existing, specs[..i], ids[..i])
      invariant committed <==> |seeded| > |models|
    {
      AddedStep(existing, specs, ids, i);
      var spec := specs[i];
      if spec.name !in existing {
        seeded := seeded + [ToRecord(spec, ids[i])];
        committed := true;
      }
      i := i + 1;
    }
    assert specs[..i] == specs && ids[..i] == ids;
  }

  /** `seed_models`: adds every default whose name is not yet taken, using
      `ids[i]` as the generated id of `DefaultModels[i]`, and commits only
      when something was added. Afterwards every default name is taken. */
  method SeedModels(models: seq<ModelRecord>, ids: seq<string>) returns (seeded: seq<ModelRecord>, committed: bool)
    requires |ids| == |DefaultModels|
    ensures seeded == models + Added(Names(models), DefaultModels, ids)
    ensures committed <==> |seeded| > |models|
    ensures forall i :: 0 <= i < |DefaultModels| ==> DefaultModels[i].name in Names(seeded)
  {
    seeded, committed := AddMissing(models, DefaultModels, ids);
    SeededNamesCoverDefaults(models, DefaultModels, ids);
  }

  /** After seeding, every spec's name is in the catalogue: either it was
      there already or its record was added. */
  lemma SeededNamesCoverDefaults(models: seq<ModelRecord>, specs: seq<ModelSpec>, ids: seq<string>)
    requires |ids| == |specs|
    ensures forall k :: 0 <= k < |specs| ==>
              specs[k].name in Names(models + Added(Names(models), specs, ids))
  {
    var a := Added(Names(models), specs, ids);
    var seeded := models + a;
    AddedComplete(Names(models), specs, ids);
    forall k | 0 <= k < |specs|
      ensures specs[k].name in Names(seeded)
    {
      if specs[k].name !in Names(models) {
        var j :| 0 <= j < |a| && a[j] == ToRecord(specs[k], ids[k]);
        assert seeded[|models| + j] == a[j];
      } else {
        var j :| 0 <= j < |models| && models[j].name == specs[k].name;
        assert seeded[j] == models[j];
      }
    }
  }

  /** Seeding is idempotent: a second start-up, whatever ids it would
      generate, adds no model and commits nothing. */
  lemma SeedIdempotent(models: seq<ModelRecord>, ids: seq<string>, laterIds: seq<string>)
    requires |ids| == |DefaultModels| && |laterIds| == |DefaultModels|
    ensures var seeded := models + Added(Names(models), DefaultModels, ids);
            Added(Names(seeded), DefaultModels, laterIds) == []
  {
    SeededNamesCoverDefaults(models, DefaultModels, ids);
    var seeded := models + Added(Names(models), DefaultModels, ids);
    AddedNothing(Names(seeded), DefaultModels, laterIds);
  }

  /** Every added record comes from a spec, so it shares a backend all the
      specs share. */
  lemma AddedKeepsBackend(names: set<string>, specs: seq<ModelSpec>, ids: seq<string>, backend: string)
    requires |ids| == |specs|
    requires forall i :: 0 <= i < |specs| ==> specs[i].backend == backend
    ensures forall j :: 0 <= j < |Added(names, specs, ids)| ==> Added(names, specs, ids)[j].backend == backend
  {
    var a := Added(names, specs, ids);
    AddedOrigin(names, specs, ids);
    forall j | 0 <= j < |a|
      ensures a[j].backend == backend
    {
      var i :| 0 <= i < |specs| && a[j] == ToRecord(specs[i], ids[i]);
    }
  }

  /** Seeding never touches an existing record, and every record it adds
      is a dummy-backend model under a name that was not taken. */
  lemma SeedKeepsExisting(models: seq<ModelRecord>, ids: seq<string>)
    requires |ids| == |DefaultModels|
    ensures var seeded := models + Added(Names(models), DefaultModels, ids);
            && seeded[..|models|] == models
            && |seeded| <= |models| + |DefaultModels|
            && forall j :: |models| <= j < |seeded| ==> seeded[j].name !in Names(models) && seeded[j].backend == Registry.DummyBackend
  {
    var a := Added(Names(models), DefaultModels, ids);
    var seeded := models + a;
    AddedKeepsBackend(Names(models), DefaultModels, ids, Registry.DummyBackend);
    AddedNamesFree(Names(models), DefaultModels, ids);
    forall j | |models| <= j < |seeded|
      ensures seeded[j].name !in Names(models) && seeded[j].backend == Registry.DummyBackend
    {
      assert seeded[j] == a[j - |models|];
    }
  }

  /** Every seeded model resolves to a scorer: its backend is the dummy one
      and its task type is a known modality. */
  lemma DefaultsResolve()
    ensures forall i :: 0 <= i < |DefaultModels| ==>
              Registry.GetAdapter(DefaultModels[i].backend, DefaultModels[i].taskType).Success?
  {
  }
}

=== FILE: seqs.dfy ===
/** Order-preserving filtering and distinctness over sequences: the
    comprehension `[x for x in s if p(x)]` and a SQL `WHERE` clause over a
    table kept in insertion order. */
module Seqs {

  function Filter<T>(s: seq<T>, p: T -> bool): (r: seq<T>)
    ensures |r| <= |s|
    ensures forall i :: 0 <= i < |r| ==> r[i] in s && p(r[i])
    ensures forall i :: 0 <= i < |s| && p(s[i]) ==> s[i] in r
    decreases |s|
  {
    if |s| == 0 then []
    else (if p(s[0]) then [s[0]] else []) + Filter(s[1..], p)
  }

  /** Filtering a concatenation filters each part. */
  lemma {:induction false} FilterAppend<T>(a: seq<T>, b: seq<T>, p: T -> bool)
    ensures Filter(a + b, p) == Filter(a, p) + Filter(b, p)
    decreases |a|
  {
    if |a| > 0 {
      assert (a + b)[1..] == a[1..] + b;
      FilterAppend(a[1..], b, p);
    } else {
      assert a + b == b;
    }
  }

  /** A second filter whose condition implies the first sees through it. */
  lemma {:induction false} FilterNarrows<T>(s: seq<T>, p: T -> bool, q: T -> bool)
    requires forall x :: q(x) ==> p(x)
    ensures Filter(Filter(s, p), q) == Filter(s, q)
    decreases |s|
  {
    if |s| > 0 {
      FilterNarrows(s[1..], p, q);
      if p(s[0]) {
        assert Filter(s, p) == [s[0]] + Filter(s[1..], p);
        assert Filter(s, p)[1..] == Filter(s[1..], p);
      } else {
        assert Filter(s, p) == Filter(s[1..], p);
        assert !q(s[0]);
        assert Filter(s, q) == Filter(s[1..], q);
      }
    }
  }

  /** A filter that keeps nothing of `s`. */
  lemma {:induction false} FilterNone<T>(s: seq<T>, p: T -> bool)
    requires forall i :: 0 <= i < |s| ==> !p(s[i])
    ensures Filter(s, p) == []
    decreases |s|
  {
    if |s| > 0 {
      FilterNone(s[1..], p);
    }
  }

  /** A filter that keeps all of `s`. */
  lemma {:induction false} FilterAll<T>(s: seq<T>, p: T -> bool)
    requires forall i :: 0 <= i < |s| ==> p(s[i])
    ensures Filter(s, p) == s
    decreases |s|
  {
    if |s| > 0 {
      FilterAll(s[1..], p);
    }
  }

  predicate Distinct<T(==)>(s: seq<T>) {
    forall i, j :: 0 <= i < j < |s| ==> s[i] != s[j]
  }

  /** Distinctness depends only on the multiset of elements. */
  lemma {:induction false} DistinctMultiset<T>(s: seq<T>)
    ensures Distinct(s) <==> forall x :: multiset(s)[x] <= 1
    decreases |s|
  {
    if |s| > 0 {
      DistinctMultiset(s[1..]);
      assert s == [s[0]] + s[1..];
      assert multiset(s) == multiset{s[0]} + multiset(s[1..]);
      if Distinct(s) {
        assert s[0] !in s[1..];
        assert Distinct(s[1..]) by {
          forall i, j | 0 <= i < j < |s[1..]| ensures s[1..][i] != s[1..][j] {
            assert s[i + 1] != s[j + 1];
          }
        }
      }
      if forall x :: multiset(s)[x] <= 1 {
        assert multiset(s)[s[0]] <= 1;
        assert s[0] !in multiset(s[1..]);
        forall x ensures multiset(s[1..])[x] <= 1 {
          assert multiset(s)[x] <= 1;
        }
        forall i, j | 0 <= i < j < |s| ensures s[i] != s[j] {
          if i == 0 {
            assert s[j] in s[1..];
          } else {
            assert s[1..][i - 1] != s[1..][j - 1];
          }
        }
      }
    }
  }

  /** Filtering keeps distinct elements distinct. */
  lemma {:induction false} FilterDistinct<T>(s: seq<T>, p: T -> bool)
    requires Distinct(s)
    ensures Distinct(Filter(s, p))
    decreases |s|
  {
    if |s| > 0 {
      assert Distinct(s[1..]) by {
        forall i, j | 0 <= i < j < |s[1..]| ensures s[1..][i] != s[1..][j] {
          assert s[i + 1] != s[j + 1];
        }
      }
      FilterDistinct(s[1..], p);
      var rest := Filter(s[1..], p);
      if p(s[0]) {
        assert s[0] !in s[1..];
        assert s[0] !in rest;
        var r := [s[0]] + rest;
        forall i, j | 0 <= i < j < |r| ensures r[i] != r[j] {
          if i == 0 {
            assert r[j] in rest;
          } else {
            assert r[i] == rest[i - 1] && r[j] == rest[j - 1];
          }
        }
      } else {
        assert Filter(s, p) == rest;
      }
    }
  }
}

=== FILE: sorting.dfy ===
/** Python's `sorted()` over a directory listing. Entries of one directory
    compare by their names, in code-point order. */
module Sorting {
  import opened Strings
  import opened Seqs

  ghost predicate Sorted(s: seq<string>) {
    forall i, j :: 0 <= i < j < |s| ==> LexLe(s[i], s[j])
  }

  /** Every element of `s` is at least `x`. */
  ghost predicate AllAtLeast(x: string, s: seq<string>) {
    forall i :: 0 <= i < |s| ==> LexLe(x, s[i])
  }

  function Insert(x: string, s: seq<string>): (r: seq<string>)
    requires Sorted(s)
    ensures Sorted(r)
    ensures multiset(r) == multiset(s) + multiset{x}
    decreases |s|
  {
    if |s| == 0 then [x]
    else if LexLe(x, s[0]) then
      InsertFrontSorted(x, s);
      [x] + s
    else
      LexLeTotal(x, s[0]);
      var rest := Insert(x, s[1..]);
      assert s == [s[0]] + s[1..];
      HeadBelowInsert(s, x, rest);
      [s[0]] + rest
  }

  lemma InsertFrontSorted(x: string, s: seq<string>)
    requires Sorted(s) && |s| > 0 && LexLe(x, s[0])
    ensures Sorted([x] + s)
  {
    var r := [x] + s;
    forall i, j | 0 <= i < j < |r| ensures LexLe(r[i], r[j]) {
      if i == 0 {
        if j > 1 {
          LexLeTransitive(x, s[0], s[j - 1]);
        }
      } else {
        assert r[i] == s[i - 1] && r[j] == s[j - 1];
      }
    }
  }

  lemma HeadBelowInsert(s: seq<string>, x: string, rest: seq<string>)
    requires Sorted(s) && |s| > 0 && LexLe(s[0], x)
    requires Sorted(rest) && multiset(rest) == multiset(s[1..]) + multiset{x}
    ensures Sorted([s[0]] + rest)
  {
    var r := [s[0]] + rest;
    forall i, j | 0 <= i < j < |r| ensures LexLe(r[i], r[j]) {
      if i == 0 {
        var y := rest[j - 1];
        assert y in multiset(rest);
        if y == x {
        } else {
          assert y in multiset(s[1..]);
          var k :| 0 <= k < |s[1..]| && s[1..][k] == y;
          assert s[k + 1] == y;
        }
      } else {
        assert r[i] == rest[i - 1] && r[j] == rest[j - 1];
      }
    }
  }

  /** The names of a listing in ascending order (insertion sort). */
  function SortNames(s: seq<string>): (r: seq<string>)
    ensures Sorted(r)
    ensures multiset(r) == multiset(s)
    decreases |s|
  {
    if |s| == 0 then []
    else
      assert s == [s[0]] + s[1..];
      Insert(s[0], SortNames(s[1..]))
  }

  /** Two sorted sequences holding the same names are the same sequence: the
      scan order is fixed by the set of entries, whatever order the
      directory listing came in. */
  lemma {:induction false} SortedUnique(a: seq<string>, b: seq<string>)
    requires Sorted(a) && Sorted(b) && multiset(a) == multiset(b)
    ensures a == b
    decreases |a|
  {
    if |a| == 0 {
      assert |multiset(b)| == 0;
    } else {
      assert |b| == |a| by {
        assert |multiset(a)| == |a| && |multiset(b)| == |b|;
      }
      SameHead(a, b);
      SortedTail(a);
      SortedTail(b);
      MultisetTail(a);
      MultisetTail(b);
      SortedUnique(a[1..], b[1..]);
      assert a == [a[0]] + a[1..];
      assert b == [b[0]] + b[1..];
    }
  }

  /** Two sorted sequences with the same elements start alike. */
  lemma SameHead(a: seq<string>, b: seq<string>)
    requires Sorted(a) && Sorted(b) && multiset(a) == multiset(b) && |a| > 0 && |b| > 0
    ensures a[0] == b[0]
  {
    assert a[0] in multiset(b);
    assert b[0] in multiset(a);
    var i :| 0 <= i < |b| && b[i] == a[0];
    var j :| 0 <= j < |a| && a[j] == b[0];
    assert LexLe(b[0], a[0]) by {
      if i == 0 { LexLeReflexive(b[0]); }
    }
    assert LexLe(a[0], b[0]) by {
      if j == 0 { LexLeReflexive(a[0]); }
    }
    LexLeAntisymmetric(a[0], b[0]);
  }

  lemma SortedTail(a: seq<string>)
    requires Sorted(a) && |a| > 0
    ensures Sorted(a[1..])
  {
    forall p, q | 0 <= p < q < |a[1..]| ensures LexLe(a[1..][p], a[1..][q]) {
      assert a[1..][p] == a[p + 1] && a[1..][q] == a[q + 1];
    }
  }

  lemma MultisetTail(a: seq<string>)
    requires |a| > 0
    ensures multiset(a[1..]) == multiset(a) - multiset{a[0]}
  {
    assert a == [a[0]] + a[1..];
    assert multiset(a) == multiset{a[0]} + multiset(a[1..]);
  }

  /** Sorting does not depend on the order the directory listed its
      entries in. */
  lemma SortNamesOrderIndependent(a: seq<string>, b: seq<string>)
    requires multiset(a) == multiset(b)
    ensures SortNames(a) == SortNames(b)
  {
    SortedUnique(SortNames(a), SortNames(b));
  }

  /** Sorting a listing without repeated names keeps it without repeats. */
  lemma SortNamesDistinct(s: seq<string>)
    requires Distinct(s)
    ensures Distinct(SortNames(s))
  {
    DistinctMultiset(s);
    DistinctMultiset(SortNames(s));
  }

  /** Filtering a sorted listing keeps it sorted. */
  lemma {:induction false} FilterSorted(s: seq<string>, p: string -> bool)
    requires Sorted(s)
    ensures Sorted(Filter(s, p))
    decreases |s|
  {
    if |s| > 0 {
      assert Sorted(s[1..]) by {
        forall i, j | 0 <= i < j < |s[1..]| ensures LexLe(s[1..][i], s[1..][j]) {
          assert s[1..][i] == s[i + 1] && s[1..][j] == s[j + 1];
        }
      }
      FilterSorted(s[1..], p);
      var rest := Filter(s[1..], p);
      if p(s[0]) {
        var r := [s[0]] + rest;
        forall i, j | 0 <= i < j < |r| ensures LexLe(r[i], r[j]) {
          if i == 0 {
            assert r[j] in s[1..];
            var k :| 0 <= k < |s[1..]| && s[1..][k] == r[j];
            assert s[k + 1] == r[j];
          } else {
            assert r[i] == rest[i - 1] && r[j] == rest[j - 1];
          }
        }
      }
    }
  }
}

=== FILE: store.dfy ===
/** The run store: the tables `main.py` reads and writes, as immutable
    values. Field names follow what `main.py` uses. */
module Store {
  import opened Wrappers
  import opened Seqs
  import opened Domain

  datatype RunStatus = Queued | Running | Done | Failed

  /** A run's `summary_json`. */
  datatype RunSummary = RunSummary(total: nat, ok: nat, ng: int, outputDir: string)

  /** An inference run. Timestamps are readings of the store's clock. */
  datatype Run = Run(
    id: string,
    projectId: string,
    datasetId: string,
    modelId: string,
    status: RunStatus,
    params: Option<Params>,
    summary: Option<RunSummary>,
    error: Option<Fault>,
    createdAt: nat,
    startedAt: Option<nat>,
    finishedAt: Option<nat>)

  datatype DatasetRecord = DatasetRecord(id: string, projectId: string)

  /** A registered model; `taskType` is its modality. */
  datatype ModelRecord = ModelRecord(id: string, name: string, taskType: string, backend: string, version: string)

  /** A persisted inference result row. */
  datatype ResultRow = ResultRow(
    runId: string,
    sampleKey: string,
    score: real,
    verdict: Verdict,
    outputPath: string,
    detail: Detail,
    summary: ItemSummary)

  /** The database tables the core touches, the JSON manifests written
      under the storage root (by path), and a clock for timestamps. Models
      and results are kept in insertion order, which is their `created_at`
      order. */
  datatype Store = Store(
    projects: set<string>,
    datasets: map<string, DatasetRecord>,
    models: seq<ModelRecord>,
    runs: map<string, Run>,
    results: seq<ResultRow>,
    manifests: map<string, Item>,
    clock: nat)

  /** Looks a model up by its id. */
  function FindModel(models: seq<ModelRecord>, id: string): (r: Option<ModelRecord>)
    ensures r.Some? ==> r.value in models && r.value.id == id
    ensures r.None? <==> forall i :: 0 <= i < |models| ==> models[i].id != id
    decreases |models|
  {
    if |models| == 0 then None
    else if models[0].id == id then Some(models[0])
    else FindModel(models[1..], id)
  }

  function InRun(runId: string): ResultRow -> bool {
    (row: ResultRow) => row.runId == runId
  }

  function NotInRun(runId: string): ResultRow -> bool {
    (row: ResultRow) => row.runId != runId
  }

  /** The result rows of one run, in the order they were stored. */
  function RowsOf(results: seq<ResultRow>, runId: string): seq<ResultRow> {
    Filter(results, InRun(runId))
  }

  /** The table after deleting one run's rows. */
  function WithoutRun(results: seq<ResultRow>, runId: string): seq<ResultRow> {
    Filter(results, NotInRun(runId))
  }

  /** Deleting one run's rows and appending rows of that run replaces that
      run's rows and leaves every other run's rows as they were. */
  lemma ReplaceRows(results: seq<ResultRow>, runId: string, rows: seq<ResultRow>, other: string)
    requires forall i :: 0 <= i < |rows| ==> rows[i].runId == runId
    ensures RowsOf(WithoutRun(results, runId) + rows, runId) == rows
    ensures other != runId ==> RowsOf(WithoutRun(results, runId) + rows, other) == RowsOf(results, other)
  {
    var kept := WithoutRun(results, runId);
    FilterAppend(kept, rows, InRun(runId));
    FilterNone(kept, InRun(runId));
    FilterAll(rows, InRun(runId));
    FilterAppend(kept, rows, InRun(other));
    if other != runId {
      FilterNarrows(results, NotInRun(runId), InRun(other));
      FilterNone(rows, InRun(other));
    }
  }
}

=== FILE: strings.dfy ===
/** Text helpers with the meaning Python gives them: code-point ordering of
    `str`, decimal rendering of `int`, ASCII case folding and character
    replacement. */
module Strings {

  /** Python's `a <= b` on `str`: lexicographic by code point, a proper
      prefix sorting first. */
  predicate LexLe(a: string, b: string)
    decreases |a|
  {
    if |a| == 0 then true
    else if |b| == 0 then false
    else if a[0] < b[0] then true
    else if a[0] > b[0] then false
    else LexLe(a[1..], b[1..])
  }

  lemma {:induction false} LexLeReflexive(a: string)
    ensures LexLe(a, a)
    decreases |a|
  {
    if |a| > 0 {
      LexLeReflexive(a[1..]);
    }
  }

  lemma {:induction false} LexLeTotal(a: string, b: string)
    ensures LexLe(a, b) || LexLe(b, a)
    decreases |a|
  {
    if |a| > 0 && |b| > 0 && a[0] == b[0] {
      LexLeTotal(a[1..], b[1..]);
    }
  }

  lemma {:induction false} LexLeTransitive(a: string, b: string, c: string)
    requires LexLe(a, b) && LexLe(b, c)
    ensures LexLe(a, c)
    decreases |a|
  {
    if |a| > 0 && a[0] == b[0] && b[0] == c[0] {
      LexLeTransitive(a[1..], b[1..], c[1..]);
    }
  }

  lemma {:induction false} LexLeAntisymmetric(a: string, b: string)
    requires LexLe(a, b) && LexLe(b, a)
    ensures a == b
    decreases |a|
  {
    if |a| > 0 {
      LexLeAntisymmetric(a[1..], b[1..]);
      assert a == [a[0]] + a[1..];
      assert b == [b[0]] + b[1..];
    }
  }

  predicate IsDigit(c: char) {
    '0' <= c <= '9'
  }

  predicate AllDigits(s: string) {
    forall i :: 0 <= i < |s| ==> IsDigit(s[i])
  }

  function DigitChar(d: nat): (c: char)
    requires d < 10
    ensures IsDigit(c)
  {
    ('0' as int + d) as char
  }

  function DigitValue(c: char): (d: nat)
    requires IsDigit(c)
    ensures d < 10
  {
    c as int - '0' as int
  }

  /** `str(n)` for a non-negative Python `int`: decimal digits, no sign,
      no leading zeros. */
  function NatToString(n: nat): (r: string)
    ensures |r| > 0
    ensures AllDigits(r)
    decreases n
  {
    if n < 10 then [DigitChar(n)]
    else NatToString(n / 10) + [DigitChar(n % 10)]
  }

  /** Reads a string of decimal digits back as a number. */
  function StringToNat(s: string): nat
    requires AllDigits(s)
    decreases |s|
  {
    if |s| == 0 then 0
    else StringToNat(s[..|s| - 1]) * 10 + DigitValue(s[|s| - 1])
  }

  lemma {:induction false} StringToNatInverts(n: nat)
    ensures StringToNat(NatToString(n)) == n
    decreases n
  {
    if n >= 10 {
      var s := NatToString(n);
      assert s[..|s| - 1] == NatToString(n / 10);
      StringToNatInverts(n / 10);
    }
  }

  /** Distinct numbers render as distinct strings. */
  lemma NatToStringInjective(m: nat, n: nat)
    requires NatToString(m) == NatToString(n)
    ensures m == n
  {
    StringToNatInverts(m);
    StringToNatInverts(n);
  }

  /** `str.lower()` restricted to ASCII letters. Every character whose
      Unicode lower case is an ASCII letter other than `k` is itself an
      ASCII letter, so comparisons against lower-case ASCII literals without
      a `k` agree with Python's. */
  function LowerChar(c: char): char {
    if 'A' <= c <= 'Z' then (c as int + 32) as char else c
  }

  function Lower(s: string): (r: string)
    ensures |r| == |s|
    ensures forall i :: 0 <= i < |s| ==> r[i] == LowerChar(s[i])
  {
    seq(|s|, i requires 0 <= i < |s| => LowerChar(s[i]))
  }

  /** Replaces every occurrence of one character by another. */
  function ReplaceChar(s: string, from: char, to: char): (r: string)
    ensures |r| == |s|
    ensures from != to ==> from !in r
    ensures from !in s ==> r == s
    ensures forall i :: 0 <= i < |s| ==> r[i] == (if s[i] == from then to else s[i])
  {
    seq(|s|, i requires 0 <= i < |s| => if s[i] == from then to else s[i])
  }
}

=== FILE: timeseries.dfy ===
/** The dummy timeseries scorer: one result per row of every CSV file of the
    dataset directory, files in sorted name order, rows in file order. */
module Timeseries {
  import opened Wrappers
  import opened Strings
  import opened Seqs
  import opened Sorting
  import opened Paths
  import opened Domain

  const RuleName := "dummy_timeseries_row_score"
  const CsvExtension := ".csv"
  const PreviewWidth := 5

  predicate IsCsvFile(name: string) {
    Lower(Suffix(name)) == CsvExtension
  }

  /** The files the scorer reads: the sorted listing, kept where the
      lower-cased suffix is `.csv`. */
  function CsvFiles(names: seq<string>): (r: seq<string>)
    ensures Sorted(r)
    ensures forall i :: 0 <= i < |r| ==> r[i] in names && HasExtension(r[i], CsvExtension)
    ensures forall n :: n in names && HasExtension(n, CsvExtension) ==> n in r
    ensures Distinct(names) ==> Distinct(r)
  {
    var sorted := SortNames(names);
    assert forall n :: n in sorted <==> n in names by {
      forall n ensures n in sorted <==> n in names {
        assert n in sorted <==> n in multiset(sorted);
        assert n in names <==> n in multiset(names);
      }
    }
    assert forall n :: IsCsvFile(n) <==> HasExtension(n, CsvExtension) by {
      forall n ensures IsCsvFile(n) <==> HasExtension(n, CsvExtension) {
        SuffixIsExtension(n, CsvExtension);
      }
    }
    FilterSorted(sorted, IsCsvFile);
    assert Distinct(names) ==> Distinct(Filter(sorted, IsCsvFile)) by {
      if Distinct(names) {
        SortNamesDistinct(names);
        FilterDistinct(sorted, IsCsvFile);
      }
    }
    Filter(sorted, IsCsvFile)
  }

  function SumOfLengths(row: Row): nat
    decreases |row|
  {
    if |row| == 0 then 0 else |row[0]| + SumOfLengths(row[1..])
  }

  /** A row's base score: the total length of its columns, taken modulo
      100, as a fraction of 100. */
  function RowBase(row: Row): real {
    (SumOfLengths(row) % 100) as real / 100.0
  }

  /** Limits a score to the unit interval. */
  function Clamp(x: real): (r: real)
    ensures 0.0 <= r <= 1.0
    ensures 0.0 <= x <= 1.0 ==> r == x
    ensures x < 0.0 ==> r == 0.0
    ensures x > 1.0 ==> r == 1.0
  {
    if x > 1.0 then 1.0 else if x < 0.0 then 0.0 else x
  }

  /** A line's sample key: the file name, ":row:" and the line index in
      decimal. */
  function RowKey(name: string, index: nat): string {
    name + ":row:" + NatToString(index)
  }

  /** The first five columns of a row (all of them when it has fewer). */
  function Preview(row: Row): seq<string> {
    if |row| <= PreviewWidth then row else row[..PreviewWidth]
  }

  /** What the scorer promises about the result for row `index` of file
      `name`, scored with the random draw `noise`. */
  ghost predicate RowResult(item: Item, dirPath: string, name: string, index: nat, row: Row, threshold: real, noise: real) {
    && item.sampleKey == RowKey(name, index)
    && item.detail == RowDetail(index, Preview(row))
    && |item.detail.preview| <= PreviewWidth
    && item.outputPath == Join(dirPath, name)
    && item.summary == ItemSummary(RuleName, threshold)
    && 0.0 <= item.score <= 1.0
    && item.score == Clamp(RowBase(row) + noise)
    && (item.verdict == Ok <==> item.score >= threshold)
  }

  function ScoreRow(dirPath: string, name: string, index: nat, row: Row, threshold: real, noise: real): (item: Item)
    ensures RowResult(item, dirPath, name, index, row, threshold, noise)
  {
    var score := Clamp(RowBase(row) + noise);
    Item(RowKey(name, index), score, VerdictFor(score, threshold), Join(dirPath, name),
         RowDetail(index, Preview(row)), ItemSummary(RuleName, threshold))
  }

  /** The results of one file; its rows draw noise `start`, `start + 1`, ... */
  function FileResults(dirPath: string, name: string, rows: seq<Row>, threshold: real, noise: nat -> real, start: nat): (r: seq<Item>)
    ensures |r| == |rows|
    ensures forall i :: 0 <= i < |rows| ==> RowResult(r[i], dirPath, name, i, rows[i], threshold, noise(start + i))
  {
    seq(|rows|, i requires 0 <= i < |rows| => ScoreRow(dirPath, name, i, rows[i], threshold, noise(start + i)))
  }

  /** Where the results of table `f` start: the rows of the tables before
      it. */
  function Offset(tables: seq<seq<Row>>, f: nat): nat
    requires f <= |tables|
  {
    if f == 0 then 0 else Offset(tables, f - 1) + |tables[f - 1]|
  }

  /** The number of rows over all tables. */
  function TotalRows(tables: seq<seq<Row>>): nat {
    Offset(tables, |tables|)
  }

  /** Offsets grow with the table index. */
  lemma {:induction false} OffsetMonotone(tables: seq<seq<Row>>, f: nat, g: nat)
    requires f <= g <= |tables|
    ensures Offset(tables, f) <= Offset(tables, g)
    decreases g
  {
    if f < g {
      OffsetMonotone(tables, f, g - 1);
    }
  }

  /** The results of the first `n` files, concatenated in file order; the
      rows draw noise in the same order, one draw per row. */
  function ResultsUpTo(dirPath: string, files: seq<string>, tables: seq<seq<Row>>, threshold: real, noise: nat -> real, n: nat): (r: seq<Item>)
    requires |files| == |tables| && n <= |files|
    ensures |r| == Offset(tables, n)
  {
    if n == 0 then []
    else ResultsUpTo(dirPath, files, tables, threshold, noise, n - 1)
         + FileResults(dirPath, files[n - 1], tables[n - 1], threshold, noise, Offset(tables, n - 1))
  }

  /** The results of all files. */
  function DirResults(dirPath: string, files: seq<string>, tables: seq<seq<Row>>, threshold: real, noise: nat -> real): (r: seq<Item>)
    requires |files| == |tables|
    ensures |r| == TotalRows(tables)
  {
    ResultsUpTo(dirPath, files, tables, threshold, noise, |files|)
  }

  /** Row `i` of file `f` is result number `Offset(tables, f) + i`, scored
      with that same draw number: results are ordered by file, then by row. */
  lemma {:induction false} ResultsUpToAt(dirPath: string, files: seq<string>, tables: seq<seq<Row>>, threshold: real, noise: nat -> real, n: nat, f: nat, i: nat)
    requires |files| == |tables| && f < n <= |files| && i < |tables[f]|
    ensures Offset(tables, f) + i < Offset(tables, n)
    ensures ResultsUpTo(dirPath, files, tables, threshold, noise, n)[Offset(tables, f) + i]
            == FileResults(dirPath, files[f], tables[f], threshold, noise, Offset(tables, f))[i]
    decreases n
  {
    var init := ResultsUpTo(dirPath, files, tables, threshold, noise, n - 1);
    if f < n - 1 {
      ResultsUpToAt(dirPath, files, tables, threshold, noise, n - 1, f, i);
      assert ResultsUpTo(dirPath, files, tables, threshold, noise, n)[Offset(tables, f) + i] == init[Offset(tables, f) + i];
    } else {
      assert |init| == Offset(tables, f);
    }
  }

  lemma DirResultsAt(dirPath: string, files: seq<string>, tables: seq<seq<Row>>, threshold: real, noise: nat -> real, f: nat, i: nat)
    requires |files| == |tables| && f < |files| && i < |tables[f]|
    ensures Offset(tables, f) + i < TotalRows(tables)
    ensures RowResult(DirResults(dirPath, files, tables, threshold, noise)[Offset(tables, f) + i],
                      dirPath, files[f], i, tables[f][i], threshold, noise(Offset(tables, f) + i))
  {
    ResultsUpToAt(dirPath, files, tables, threshold, noise, |files|, f, i);
  }

  /** The file and row a result position comes from, among the first `n`
      files. */
  function OwnerUpTo(tables: seq<seq<Row>>, q: nat, n: nat): (fi: (nat, nat))
    requires n <= |tables| && q < Offset(tables, n)
    ensures fi.0 < n && fi.1 < |tables[fi.0]|
    ensures Offset(tables, fi.0) + fi.1 == q
    decreases n
  {
    if q >= Offset(tables, n - 1) then (n - 1, q - Offset(tables, n - 1))
    else OwnerUpTo(tables, q, n - 1)
  }

  /** The file and row result position `q` comes from. */
  function Owner(tables: seq<seq<Row>>, q: nat): (fi: (nat, nat))
    requires q < TotalRows(tables)
    ensures fi.0 < |tables| && fi.1 < |tables[fi.0]|
    ensures Offset(tables, fi.0) + fi.1 == q
  {
    OwnerUpTo(tables, q, |tables|)
  }

  /** Distinct (file, row) pairs sit at distinct positions. */
  lemma PositionsDiffer(tables: seq<seq<Row>>, f: nat, i: nat, g: nat, j: nat)
    requires f < |tables| && g < |tables| && i < |tables[f]| && j < |tables[g]|
    requires f < g
    ensures Offset(tables, f) + i < Offset(tables, g) + j
  {
    OffsetMonotone(tables, f + 1, g);
  }

  lemma LastIndexAt(s: string, c: char, p: nat)
    requires p < |s| && s[p] == c
    requires forall j :: p < j < |s| ==> s[j] != c
    ensures LastIndexOf(s, c) == p
  {
  }

  lemma RowKeyLastColon(name: string, index: nat)
    ensures LastIndexOf(RowKey(name, index), ':') == |name| + 4
  {
    var k := RowKey(name, index);
    var d := NatToString(index);
    assert forall j :: |name| + 4 < j < |k| ==> k[j] == d[j - |name| - 5];
    LastIndexAt(k, ':', |name| + 4);
  }

  /** Different (file, row) pairs give different sample keys. */
  lemma RowKeyInjective(a: string, i: nat, b: string, j: nat)
    requires RowKey(a, i) == RowKey(b, j)
    ensures a == b && i == j
  {
    var k := RowKey(a, i);
    RowKeyLastColon(a, i);
    RowKeyLastColon(b, j);
    assert |a| == |b|;
    assert a == k[..|a|] == b;
    assert NatToString(i) == k[|a| + 5..] == NatToString(j);
    NatToStringInjective(i, j);
  }

  lemma RowKeysDiffer(a: string, i: nat, b: string, j: nat)
    ensures (a != b || i != j) ==> RowKey(a, i) != RowKey(b, j)
  {
    if RowKey(a, i) == RowKey(b, j) {
      RowKeyInjective(a, i, b, j);
    }
  }

  /** Within one directory listing without repeated names, every result has
      its own sample key. */
  lemma DirResultsKeysDistinct(dirPath: string, files: seq<string>, tables: seq<seq<Row>>, threshold: real, noise: nat -> real)
    requires |files| == |tables| && Distinct(files)
    ensures forall p, q :: 0 <= p < q < TotalRows(tables) ==>
              DirResults(dirPath, files, tables, threshold, noise)[p].sampleKey
              != DirResults(dirPath, files, tables, threshold, noise)[q].sampleKey
  {
    forall p, q | 0 <= p < q < TotalRows(tables)
      ensures DirResults(dirPath, files, tables, threshold, noise)[p].sampleKey
              != DirResults(dirPath, files, tables, threshold, noise)[q].sampleKey
    {
      PairKeysDiffer(dirPath, files, tables, threshold, noise, p, q);
    }
  }

  lemma PairKeysDiffer(dirPath: string, files: seq<string>, tables: seq<seq<Row>>, threshold: real, noise: nat -> real, p: nat, q: nat)
    requires |files| == |tables| && Distinct(files)
    requires p < q < TotalRows(tables)
    ensures DirResults(dirPath, files, tables, threshold, noise)[p].sampleKey
            != DirResults(dirPath, files, tables, threshold, noise)[q].sampleKey
  {
    var fp := Owner(tables, p);
    var fq := Owner(tables, q);
    DirResultsAt(dirPath, files, tables, threshold, noise, fp.0, fp.1);
    DirResultsAt(dirPath, files, tables, threshold, noise, fq.0, fq.1);
    if fq.0 < fp.0 {
      PositionsDiffer(tables, fq.0, fq.1, fp.0, fp.1);
    }
    assert fp.0 != fq.0 ==> files[fp.0] != files[fq.0];
    RowKeysDiffer(files[fp.0], fp.1, files[fq.0], fq.1);
  }

  /** Reads every selected file, failing on the first that cannot be read. */
  function ReadTables(dirPath: string, files: seq<string>, read: string -> CsvRead): (r: Result<seq<seq<Row>>, Fault>)
    ensures r.Success? <==> forall i :: 0 <= i < |files| ==> read(files[i]).Rows?
    ensures r.Success? ==>
              (|r.value| == |files| && forall i :: 0 <= i < |files| ==> r.value[i] == read(files[i]).rows)
    ensures r.Failure? ==>
              (exists k :: 0 <= k < |files| && read(files[k]).ReadError?
                           && (forall i :: 0 <= i < k ==> read(files[i]).Rows?)
                           && r.error == Unreadable(Join(dirPath, files[k]), read(files[k]).message))
    decreases |files|
  {
    if |files| == 0 then Success([])
    else match read(files[0])
      case ReadError(m) => Failure(Unreadable(Join(dirPath, files[0]), m))
      case Rows(rows) =>
        var rest :- ReadTables(dirPath, files[1..], read);
        Success([rows] + rest)
  }

  /** `DummyTimeseriesAdapter.run`: the threshold is resolved first, then the
      directory is listed (a missing directory raises), then every CSV file
      is read and scored. */
  function Run(dirPath: string, dir: Option<Directory>, params: Option<Params>, noise: nat -> real): (r: Result<seq<Item>, Fault>)
    ensures ResolveThreshold(params).Failure? ==> r == ResolveThreshold(params).PropagateFailure()
    ensures ResolveThreshold(params).Success? && dir.None? ==> r == Failure(DirectoryMissing(dirPath))
    ensures r.Success? ==> dir.Some? && ResolveThreshold(params).Success?
    ensures r.Success? ==>
              var tables := ReadTables(dirPath, CsvFiles(dir.value.names), dir.value.read);
              tables.Success? && |r.value| == TotalRows(tables.value)
    ensures ResolveThreshold(params).Success? && dir.Some? ==>
              var tables := ReadTables(dirPath, CsvFiles(dir.value.names), dir.value.read);
              && (r.Success? <==> tables.Success?)
              && (tables.Failure? ==> r == tables.PropagateFailure())
  {
    var threshold :- ResolveThreshold(params);
    if dir.None? then Failure(DirectoryMissing(dirPath))
    else
      var files := CsvFiles(dir.value.names);
      var tables :- ReadTables(dirPath, files, dir.value.read);
      Success(DirResults(dirPath, files, tables, threshold, noise))
  }

  /** Result `p` is the result of the row it comes from. */
  ghost predicate ResultOfPosition(item: Item, dirPath: string, files: seq<string>, tables: seq<seq<Row>>, threshold: real, noise: nat -> real, p: nat)
    requires |files| == |tables| && p < TotalRows(tables)
  {
    var fi := Owner(tables, p);
    RowResult(item, dirPath, files[fi.0], fi.1, tables[fi.0][fi.1], threshold, noise(p))
  }

  lemma DirResultsLayout(dirPath: string, files: seq<string>, tables: seq<seq<Row>>, threshold: real, noise: nat -> real)
    requires |files| == |tables|
    ensures var r := DirResults(dirPath, files, tables, threshold, noise);
            forall p :: 0 <= p < |r| ==> ResultOfPosition(r[p], dirPath, files, tables, threshold, noise, p)
  {
    var r := DirResults(dirPath, files, tables, threshold, noise);
    forall p | 0 <= p < |r| ensures ResultOfPosition(r[p], dirPath, files, tables, threshold, noise, p) {
      var fi := Owner(tables, p);
      DirResultsAt(dirPath, files, tables, threshold, noise, fi.0, fi.1);
    }
  }

  /** A successful run scores every row of every CSV file: result `p` is
      the result for the row at position `p` of the concatenated files. */
  lemma RunLayout(dirPath: string, dir: Option<Directory>, params: Option<Params>, noise: nat -> real)
    requires Run(dirPath, dir, params, noise).Success?
    ensures dir.Some? && ResolveThreshold(params).Success?
    ensures var files := CsvFiles(dir.value.names);
            var tables := ReadTables(dirPath, files, dir.value.read);
            var r := Run(dirPath, dir, params, noise).value;
            && tables.Success?
            && |r| == TotalRows(tables.value)
            && forall p :: 0 <= p < |r| ==>
                 ResultOfPosition(r[p], dirPath, files, tables.value, ResolveThreshold(params).value, noise, p)
  {
    var files := CsvFiles(dir.value.names);
    var tables := ReadTables(dirPath, files, dir.value.read);
    var threshold := ResolveThreshold(params).value;
    assert Run(dirPath, dir, params, noise).value == DirResults(dirPath, files, tables.value, threshold, noise);
    DirResultsLayout(dirPath, files, tables.value, threshold, noise);
  }

  /** In a listing without repeated names, every result has its own key. */
  lemma RunKeysDistinct(dirPath: string, dir: Option<Directory>, params: Option<Params>, noise: nat -> real)
    requires Run(dirPath, dir, params, noise).Success?
    requires dir.Some? && Distinct(dir.value.names)
    ensures var r := Run(dirPath, dir, params, noise).value;
            forall p, q :: 0 <= p < q < |r| ==> r[p].sampleKey != r[q].sampleKey
  {
    var files := CsvFiles(dir.value.names);
    var tables := ReadTables(dirPath, files, dir.value.read);
    var threshold := ResolveThreshold(params).value;
    assert Run(dirPath, dir, params, noise).value == DirResults(dirPath, files, tables.value, threshold, noise);
    DirResultsKeysDistinct(dirPath, files, tables.value, threshold, noise);
  }

  /** The sample keys do not depend on the random draws: scoring the same
      directory twice gives the same keys in the same order. */
  lemma RunKeysDeterministic(dirPath: string, dir: Option<Directory>, params: Option<Params>, n1: nat -> real, n2: nat -> real)
    ensures Run(dirPath, dir, params, n1).Success? <==> Run(dirPath, dir, params, n2).Success?
    ensures var r1 := Run(dirPath, dir, params, n1);
            var r2 := Run(dirPath, dir, params, n2);
            r1.Success? ==>
              && |r1.value| == |r2.value|
              && forall p :: 0 <= p < |r1.value| ==> r1.value[p].sampleKey == r2.value[p].sampleKey
  {
    var r1 := Run(dirPath, dir, params, n1);
    var r2 := Run(dirPath, dir, params, n2);
    if r1.Success? {
      RunLayout(dirPath, dir, params, n1);
      RunLayout(dirPath, dir, params, n2);
    }
  }
}

=== FILE: uploads.dfy ===
/** The upload handler's pure steps: the stored file name and the metadata
    extracted from a stored file. */
module Uploads {
  import opened Wrappers
  import opened Strings
  import opened Paths
  import opened Domain
  import Timeseries

  const DefaultUploadName := "upload.bin"

  /** The name an upload is stored under: the last path component of the
      client's file name, or "upload.bin" when the client sent none. */
  function SafeName(filename: Option<string>): (r: string)
    ensures '/' !in r && r != "."
    ensures filename.None? || filename == Some("") ==> r == DefaultUploadName
    ensures filename.Some? && PlainComponent(filename.value) ==> r == filename.value
  {
    var given := if filename.None? || filename.value == "" then DefaultUploadName else filename.value;
    assert PlainComponent(DefaultUploadName);
    BaseNameOfPlain(DefaultUploadName);
    assert filename.Some? && PlainComponent(filename.value) ==> BaseName(filename.value) == filename.value by {
      if filename.Some? && PlainComponent(filename.value) {
        BaseNameOfPlain(filename.value);
      }
    }
    BaseName(given)
  }

  /** An uploaded path keeps only its last component. */
  lemma SafeNameOfPath(dir: string, name: string)
    requires PlainComponent(name)
    ensures SafeName(Some(Join(dir, name))) == name
  {
    BaseNameOfJoin(dir, name);
  }

  /** The width of the widest row, 0 for a file without rows. */
  function MaxColumns(rows: seq<Row>): (n: nat)
    ensures forall i :: 0 <= i < |rows| ==> |rows[i]| <= n
    ensures |rows| == 0 ==> n == 0
    ensures |rows| > 0 ==> exists i :: 0 <= i < |rows| && |rows[i]| == n
    decreases |rows|
  {
    if |rows| == 0 then 0
    else
      var rest := MaxColumns(rows[1..]);
      if |rows[0]| >= rest then |rows[0]|
      else
        assert |rows| > 1;
        var j :| 0 <= j < |rows[1..]| && |rows[1..][j]| == rest;
        assert |rows[j + 1]| == rest;
        rest
  }

  /** `meta_json`: the image type `imghdr` detects, and for a `.csv` file
      its row count and widest row. */
  datatype Metadata = Metadata(imageType: Option<string>, rows: Option<nat>, cols: Option<nat>)

  /** `extract_metadata(path) or None`. `imageType` is what `imghdr.what`
      reports; `read` is what reading the file as CSV gives (only consulted
      for a `.csv` file; a read error escapes the handler). */
  function ExtractMetadata(name: string, imageType: Option<string>, read: CsvRead): (r: Result<Option<Metadata>, string>)
    ensures !Timeseries.IsCsvFile(name) ==>
              r == Success(if imageType.None? then None else Some(Metadata(imageType, None, None)))
    ensures Timeseries.IsCsvFile(name) && read.ReadError? ==> r == Failure(read.message)
    ensures Timeseries.IsCsvFile(name) && read.Rows? ==>
              && r.Success? && r.value.Some?
              && r.value.value.rows == Some(|read.rows|)
              && r.value.value.cols.Some?
              && (forall i :: 0 <= i < |read.rows| ==> |read.rows[i]| <= r.value.value.cols.value)
              && (|read.rows| == 0 ==> r.value.value.cols == Some(0))
              && (|read.rows| > 0 ==> exists i :: 0 <= i < |read.rows| && |read.rows[i]| == r.value.value.cols.value)
  {
    if !Timeseries.IsCsvFile(name) then
      Success(if imageType.None? then None else Some(Metadata(imageType, None, None)))
    else match read
      case ReadError(m) => Failure(m)
      case Rows(rows) => Success(Some(Metadata(imageType, Some(|rows|), Some(MaxColumns(rows)))))
  }
}

=== FILE: vision.dfy ===
/** The dummy vision scorer: one result per image file of the dataset
    directory, in sorted name order; `mixed` models use it too. */
module Vision {
  import opened Wrappers
  import opened Strings
  import opened Seqs
  import opened Sorting
  import opened Paths
  import opened Domain

  const RuleName := "dummy_vision_threshold"
  const ImageExtensions: set<string> := {".png", ".jpg", ".jpeg", ".bmp"}

  predicate IsImageFile(name: string) {
    Lower(Suffix(name)) in ImageExtensions
  }

  /** A file name counts as an image when it ends in one of the image
      extensions, letter case aside, after a non-empty stem. */
  predicate LooksLikeImage(name: string) {
    || HasExtension(name, ".png")
    || HasExtension(name, ".jpg")
    || HasExtension(name, ".jpeg")
    || HasExtension(name, ".bmp")
  }

  lemma ImageFileIff(name: string)
    ensures IsImageFile(name) <==> LooksLikeImage(name)
  {
    var s := Lower(Suffix(name));
    assert IsImageFile(name) <==> s == ".png" || s == ".jpg" || s == ".jpeg" || s == ".bmp";
    assert IsExtension(".png") && IsExtension(".jpg") && IsExtension(".jpeg") && IsExtension(".bmp");
    SuffixIsExtension(name, ".png");
    SuffixIsExtension(name, ".jpg");
    SuffixIsExtension(name, ".jpeg");
    SuffixIsExtension(name, ".bmp");
  }

  /** The files the scorer considers: the sorted listing, kept where the
      lower-cased suffix is an image extension. */
  function ImageFiles(names: seq<string>): (r: seq<string>)
    ensures Sorted(r)
    ensures forall i :: 0 <= i < |r| ==> r[i] in names && LooksLikeImage(r[i])
    ensures forall n :: n in names && LooksLikeImage(n) ==> n in r
    ensures Distinct(names) ==> Distinct(r)
  {
    var sorted := SortNames(names);
    assert forall n :: n in sorted <==> n in names by {
      forall n ensures n in sorted <==> n in names {
        assert n in sorted <==> n in multiset(sorted);
        assert n in names <==> n in multiset(names);
      }
    }
    assert forall n :: IsImageFile(n) <==> LooksLikeImage(n) by {
      forall n ensures IsImageFile(n) <==> LooksLikeImage(n) {
        ImageFileIff(n);
      }
    }
    FilterSorted(sorted, IsImageFile);
    assert Distinct(names) ==> Distinct(Filter(sorted, IsImageFile)) by {
      if Distinct(names) {
        SortNamesDistinct(names);
        FilterDistinct(sorted, IsImageFile);
      }
    }
    Filter(sorted, IsImageFile)
  }

  /** What the scorer promises about the result for image `name`, scored
      with the random draw `d`. */
  ghost predicate ImageResult(item: Item, dirPath: string, name: string, threshold: real, d: VisionDraw) {
    && item.sampleKey == name
    && item.outputPath == Join(dirPath, name)
    && item.summary == ItemSummary(RuleName, threshold)
    && item.score == d.score
    && 0.2 <= item.score <= 0.98
    && (item.verdict == Ok <==> item.score >= threshold)
    && item.detail.ImageDetail?
    && item.detail.bbox == BBox(d.x, d.y, d.w, d.h)
    && 0 <= item.detail.bbox.x <= 100 && 0 <= item.detail.bbox.y <= 100
    && 20 <= item.detail.bbox.w <= 120 && 20 <= item.detail.bbox.h <= 120
  }

  function ScoreImage(dirPath: string, name: string, threshold: real, d: VisionDraw): (item: Item)
    requires ValidDraw(d)
    ensures ImageResult(item, dirPath, name, threshold, d)
  {
    Item(name, d.score, VerdictFor(d.score, threshold), Join(dirPath, name),
         ImageDetail(BBox(d.x, d.y, d.w, d.h)), ItemSummary(RuleName, threshold))
  }

  /** The results of the selected images; image `i` takes draw `start + i`. */
  function ImageResults(dirPath: string, files: seq<string>, threshold: real, draws: nat -> VisionDraw, start: nat): (r: seq<Item>)
    requires forall k: nat :: ValidDraw(draws(k))
    ensures |r| == |files|
    ensures forall i :: 0 <= i < |files| ==> ImageResult(r[i], dirPath, files[i], threshold, draws(start + i))
  {
    seq(|files|, i requires 0 <= i < |files| => ScoreImage(dirPath, files[i], threshold, draws(start + i)))
  }

  /** `DummyVisionAdapter.run`: the threshold is resolved first, then the
      directory is listed (a missing directory raises); no file is read. */
  function Run(dirPath: string, dir: Option<Directory>, params: Option<Params>, draws: nat -> VisionDraw): (r: Result<seq<Item>, Fault>)
    requires forall k: nat :: ValidDraw(draws(k))
    ensures ResolveThreshold(params).Failure? ==> r == ResolveThreshold(params).PropagateFailure()
    ensures ResolveThreshold(params).Success? && dir.None? ==> r == Failure(DirectoryMissing(dirPath))
    ensures r.Success? <==> ResolveThreshold(params).Success? && dir.Some?
    ensures r.Success? ==>
              var files := ImageFiles(dir.value.names);
              && |r.value| == |files|
              && forall i :: 0 <= i < |files| ==>
                   ImageResult(r.value[i], dirPath, files[i], ResolveThreshold(params).value, draws(i))
  {
    var threshold :- ResolveThreshold(params);
    if dir.None? then Failure(DirectoryMissing(dirPath))
    else
      var files := ImageFiles(dir.value.names);
      Success(ImageResults(dirPath, files, threshold, draws, 0))
  }

  /** In a listing without repeated names, every result has its own key. */
  lemma RunKeysDistinct(dirPath: string, dir: Option<Directory>, params: Option<Params>, draws: nat -> VisionDraw)
    requires forall k: nat :: ValidDraw(draws(k))
    requires dir.Some? && Distinct(dir.value.names)
    ensures var r := Run(dirPath, dir, params, draws);
            r.Success? ==> forall p, q :: 0 <= p < q < |r.value| ==> r.value[p].sampleKey != r.value[q].sampleKey
  {
    var files := ImageFiles(dir.value.names);
    assert Distinct(files);
  }
}

=== FILE: wrappers.dfy ===
/** Failure-compatible wrappers used throughout the model: an optional value
    (Python's `None`) and a success-or-error result (a raised exception). */
module Wrappers {

  datatype Option<+T> = None | Some(value: T) {

    /** The wrapped value, or `default` when absent. */
    function GetOr(default: T): T {
      match this
      case Some(v) => v
      case None => default
    }
  }

  datatype Result<+R, +E> = Success(value: R) | Failure(error: E) {

    predicate IsFailure() {
      Failure?
    }

    function PropagateFailure<U>(): Result<U, E>
      requires Failure?
    {
      Failure(error)
    }

    function Extract(): R
      requires Success?
    {
      value
    }
  }
}
